=== FILE: README.md ===
# txt2utf8 in Dafny

txt2utf8 converts `.txt` files of unknown encoding to UTF-8. It does this for one
file or for every `.txt` file under a directory. The repository holds two
versions of the `Converter` class:

- `convertor.py` is the live one. Its detection policy is strict: no classifier
  match is an error. A detected name that contains "utf-8", once lower-cased
  with "_" read as "-", is read as "utf-8-sig", so a leading byte order mark
  is dropped. Other names, such as "utf8", are used as they are and keep the
  mark. Decoding is strict and copies newlines verbatim. A
  batch runs under a semaphore of `max(1, workers)` permits.
- `converter.py` is the prototype. A classifier match is reported with a fixed
  confidence of 0.8. Without a match it falls back to the first of
  "utf-8-sig", "utf-8", "cp1251", "latin-1" that decodes the sample. It decodes
  with `errors="replace"` and translates newlines on read. It reports the input's
  stat size. Its batch hands `workers` to a thread pool unchanged.

The model is built in layers, one module each:

- `Paths`: pathlib's names, parents, suffixes and lower-casing.
- `Utf8`: UTF-8 per RFC 3629, section 3 (encoding) and section 4 (the
  well-formed byte grammar), with both round trips. Also the byte order mark of
  RFC 3629 section 6.
- `Codecs`: the codec registry. UTF-8, "utf-8-sig" and Latin-1 are concrete;
  every other codec is abstract. The charset classifier is an uninterpreted
  function.
- `Models`: the two result records of `models.py` and the exceptions.
- `Files`: the filesystem. `FsState` is a map from paths to bytes plus a set of
  directories; the class `FileSystem` holds them in mutable fields.
- `Streams`: the chunked text reader and the copy loop.
- `Pipeline`: the steps both classes share. These are the input check,
  output-path resolution, the overwrite gate and the batch candidate set.
- `Convertor` and `Converter`: the two classes. Each has an imperative
  `Converter.Convert`, `StreamCopy` and `BatchConvert`, proved against
  functions of the filesystem state (`ConvertSpec`, `CopySpec`, `BatchSpec`).
- `ConvertorLemmas` and `ConverterLemmas`: what whole conversions do to
  particular inputs.

Assumptions the source leaves open:

- **Path suffix.** Suffixes follow pathlib (Python 3.12 and earlier). The suffix
  is the part from the last dot of the final name, provided that dot is neither
  the first nor the last character.
- **Glob.** The glob "*.txt" matches names case-sensitively, as on POSIX, and
  hidden names are included.
- **Lower-casing.** Lower-casing is ASCII.
- **Current directory.** "." always exists as a directory.
- **Output newlines.** An output stream opened without `newline=""` writes "\n"
  as it is (POSIX line separator).

Behaviour the model follows from the code:

- **In-place overwrite.** In both classes the output is opened, and so truncated,
  before the input is read. Converting a file onto itself with `overwrite`
  therefore empties it.
- **What a failure leaves behind.** The input check, the overwrite gate and a
  failed mkdir change nothing. The output's parent directories are created
  before detection, so a failed detection in `convertor.py` writes no file but
  leaves those directories in place. A strict decoding error part-way through
  leaves the output holding the text read before the error.
- **Prototype `workers`.** A `workers` below 1 makes the prototype's thread pool
  raise. That happens after the output directory has been created.
- **Unreachable fallback.** The prototype's `("latin-1", 0.5)` return cannot be
  reached, because Latin-1 decodes every byte sequence.

## Model

| member | source | states |
|---|---|---|
| Paths.Name | convertor.py:109 | the final component of a non-empty path, never empty; "" for the current directory |
| Paths.Parent | convertor.py:29 | a proper prefix one component shorter (the current directory stays itself) |
| Paths.Join | convertor.py:109 | joining a name gives a path whose parent is the base and whose name is that name |
| Paths.Suffix | convertor.py:100 | non-empty exactly when the name has a dot after its first character and does not end in a dot; then it is the name's tail from its last dot, with no further dot |
| Paths.LowerChar | convertor.py:100 | upper-case ASCII letters map to lower case, every other character is unchanged |
| Paths.Lower | convertor.py:100 | same length, lower-cased character by character |
| Paths.ContainsAt | convertor.py:34 | substring search holds exactly when the needle occurs at some index |
| Paths.ContainsNeedsRoom | convertor.py:34 | a needle longer than the text never occurs in it |
| Paths.Prefixes | convertor.py:29 | the set of all ancestors of a path, the path and "." included |
| Utf8.CodePoint | convertor.py:136 | the scalar value of one well-formed UTF-8 character, its range fixed by the character's length as in RFC 3629 section 3 |
| Utf8.Encode | convertor.py:134 | the UTF-8 encoding of a text: empty exactly for the empty text, at least one byte per character |
| Utf8.EncodeAppend | convertor.py:157 | encoding distributes over concatenation, so chunked writes equal one write |
| Utf8.DecodeEncode | convertor.py:134-136 | decoding an encoded text gives it back |
| Utf8.EncodeDecode | convertor.py:134-136 | re-encoding decoded bytes gives the original bytes |
| Utf8.DecodeIffWellFormed | convertor.py:136 | strict UTF-8 decoding succeeds exactly on the RFC 3629 section 4 grammar |
| Utf8.EncodeWellFormed | convertor.py:134 | everything the encoder writes is well-formed |
| Utf8.EncodeCodePoint | convertor.py:136 | a well-formed character re-encodes to its own bytes |
| Utf8.StripBom | convertor.py:32-36 | drops exactly a leading byte order mark, and nothing else |
| Utf8.BomIsEncodedFeff | convertor.py:32-36 | the byte order mark is the encoding of U+FEFF |
| Utf8.PartialBomRejected | convertor.py:136 | the first one or two bytes of a BOM alone are not well-formed UTF-8, and a one-shot "utf-8-sig" decode rejects them |
| Utf8.DecodeSigAccepts | convertor.py:32-36 | "utf-8-sig" decoding succeeds exactly on well-formed bytes |
| Utf8.DecodeSigRoundTrip | convertor.py:32-36 | re-encoding a "utf-8-sig" decode gives the bytes without their BOM |
| Utf8.DecodeSigDropsBom | convertor.py:32-36 | "utf-8-sig" reads a BOM-prefixed encoding as the text after the BOM |
| Utf8.EncodedStartsWithBom | converter.py:139-140 | an encoded text starts with a BOM exactly when the text starts with U+FEFF |
| Codecs.CodecKey | convertor.py:136 | the lookup key has the same length as the name; only canonical spellings are recognised (see "## Left out") |
| Codecs.Latin1Decode | converter.py:117 | Latin-1 maps each byte to the character of the same value |
| Codecs.StrictDecode | converter.py:123-128 | empty input decodes to ""; the utf-8-sig, UTF-8 and Latin-1 names decode as those codecs |
| Codecs.ReaderDecode | convertor.py:136 | a text reader decodes as strict decoding does, except that under "utf-8-sig" a lone partial BOM, which strict decoding rejects, reads as "" |
| Codecs.ReplaceDecode | converter.py:139 | the replacing reader never fails and agrees with the strict reader, and so with strict decoding, wherever those succeed |
| Codecs.FallbackNamesResolve | converter.py:117 | the four fallback names resolve to utf-8-sig, UTF-8, an abstract codec and Latin-1 |
| Models.Describe | convertor.py:86-87 | a ValueError's text is its message as given; every error the converters raise has a non-empty text |
| Models.ItemOf | convertor.py:85-87 | a batch item has `ok` exactly when the conversion succeeded; then it holds the report, and otherwise the error text |
| Files.MakeDirsSpec | convertor.py:29 | mkdir fails exactly when the path or an ancestor is a file, changing nothing; otherwise every ancestor becomes a directory |
| Files.FileSystem.MakeDirs | convertor.py:29 | the new state and result are those of `MakeDirsSpec` |
| Files.FileSystem.OpenForWriting | convertor.py:134 | opening a directory fails; otherwise the file is created or truncated to empty |
| Files.FileSystem.Append | convertor.py:157 | a write appends its bytes to the file and changes nothing else |
| Streams.Chunks | convertor.py:154 | the reads of a text reader: chunks of 1 to `READ_CHARS` characters whose concatenation is the text |
| Streams.ConcatSnoc | convertor.py:153-157 | one more chunk extends the concatenation by that chunk |
| Streams.ChunkReader.Read | convertor.py:154 | returns the next chunk, then "" (or the decoding error) forever after; the raw position never moves back, and a read returning "" has reached the end of the raw file |
| Streams.ChunkReader.Tell | convertor.py:158 | after the reader has returned "", the raw position is the size of the raw input |
| Streams.CopyChunks | convertor.py:153-158 | the loop terminates; the output gains the encoding of all chunks in read order; it fails exactly when the reader fails, and on success the reader has reached the end of the raw file |
| Pipeline.Sample | convertor.py:118-119 | the sample is the input's first `DETECT_MAX_BYTES` bytes, or the whole input when shorter |
| Pipeline.EnsureInputTxt | convertor.py:97-101 | passes exactly for an existing file with a ".txt" suffix in any case; a missing file is checked first |
| Pipeline.MakeOutputPath | convertor.py:103-114 | batch mode: the input's name under the spec, or under its parent when the spec has a suffix; single mode: the spec itself exactly when it is suffixed and not a directory |
| Pipeline.SuffixedOutputDirUsesParent | convertor.py:107-109 | a suffixed batch output directory sends results to its parent |
| Pipeline.TxtSuffixIsNonEmpty | convertor.py:100 | a ".txt" input is a named path with a non-empty suffix |
| Pipeline.BatchTargetResolvedAgain | convertor.py:77-83 | a batch item's target is resolved again in single mode and moves one level down only when it is an existing directory |
| Pipeline.Preflight | convertor.py:23-28 | the order of the checks: missing input, then a non-".txt" suffix, then an existing output without `overwrite` |
| Pipeline.TxtCandidates | convertor.py:162-169 | a file root gives itself when it has a ".txt" suffix; a directory root gives the files under it (direct children unless recursive) that match "*.txt" |
| Pipeline.GlobbedNameHasTxtSuffix | convertor.py:168 | a globbed name longer than ".txt" passes the input check |
| Pipeline.HiddenTxtIsRejected | convertor.py:168 | a file named ".txt" is globbed but then rejected by the suffix check |
| Pipeline.CollectTxtFiles | convertor.py:162-169 | a missing root raises; a file root yields `[root]` or `[]`; otherwise each candidate exactly once |
| Pipeline.DistinctListIsPermutation | convertor.py:89-94 | a duplicate-free list of the candidates is a permutation of the candidate set |
| Convertor.DetectEncoding | convertor.py:117-123 | fails with the detection error exactly when there is no match or the name is empty; otherwise the classifier's name and confidence, with 0.0 when it has none |
| Convertor.NormalizeName | convertor.py:34 | same length as the name; each character lower-cased, with "_" written as "-" |
| Convertor.StreamEncoding | convertor.py:32-36 | either "utf-8-sig" or the detected name unchanged |
| Convertor.StreamEncodingIsSigExactly | convertor.py:32-36 | "utf-8-sig" exactly when the lower-cased name with "_" as "-" contains "utf-8" |
| Convertor.StreamEncodingOnSpellings | convertor.py:32-36 | "utf_8" and "UTF-8-SIG" become "utf-8-sig"; "utf8" and "cp1251" pass unchanged |
| Convertor.Utf8NamesReadAsSig | convertor.py:32-36 | every substituted name is read by the "utf-8-sig" codec |
| Convertor.OpenStrict | convertor.py:136 | the reader fails exactly when the text reader's decoding fails: strict decoding, except that "utf-8-sig" reads a file holding only the first one or two bytes of a BOM as ""; otherwise its chunks join to the decoded text |
| Convertor.CopySpec | convertor.py:125-160 | a directory output fails unchanged; otherwise the output is truncated first (so in == out reads nothing); success exactly when the reader's decoding succeeds, with the byte count and the UTF-8 re-encoding; no other file changes |
| Convertor.StreamCopy | convertor.py:125-160 | the result and new filesystem are those of `CopySpec` |
| Convertor.DetectAndCopy | convertor.py:31-52 | fails exactly on detection failure, a directory output or a decoding failure of the substituted codec, and every error is one the converter raises; on success the output holds the decoded text re-encoded as UTF-8, and the report has the original name, the classifier's confidence, the input size and the size written |
| Convertor.ConvertSpec | convertor.py:22-52 | a failing preflight check returns its error with nothing changed; every error is one the converter raises; success reports the preflight's output path; only a decoding error leaves changed files; no other file changes |
| Convertor.Converter.constructor | convertor.py:15-20 | stores the input path, output spec and overwrite flag |
| Convertor.Converter.Convert | convertor.py:22-52 | the result and new filesystem are those of `ConvertSpec` |
| Convertor.Permits | convertor.py:71 | the semaphore size is `workers`, at least 1 |
| Convertor.ConvertOne | convertor.py:73-87 | one item per file: its path, exactly one of report or error, a report about that file |
| Convertor.RunOne | convertor.py:73-87 | the item and new filesystem are those of `ConvertOne` |
| Convertor.BatchSpec | convertor.py:89-94 | one result per file, the files converted one after another |
| Convertor.BatchItemsMatchFiles | convertor.py:85-94 | the i-th result is about the i-th file, has exactly one of report or error, and a successful one reports that file |
| Convertor.RunBatch | convertor.py:89-94 | the results and new filesystem are those of `BatchSpec` |
| Convertor.BatchConvert | convertor.py:54-94 | a missing root raises FileNotFoundError and no candidates raises ValueError, both before mkdir; otherwise fails exactly when mkdir fails; every failure changes nothing; on success the results' paths are a permutation of the candidates and the results are those of `BatchSpec` |
| ConvertorLemmas.DetectAndCopyUtf8 | convertor.py:31-52 | for a detected name containing "utf-8" once normalised, success exactly on well-formed input or on a lone partial BOM; the output is the input without its BOM (empty for a partial BOM); otherwise the decoding error |
| ConvertorLemmas.SigReader | convertor.py:136 | the "utf-8-sig" reader accepts exactly well-formed input and a lone partial BOM, and re-encoding what it reads gives the input without its BOM |
| ConvertorLemmas.DetectAndCopyDecodable | convertor.py:31-52 | for any detected name (cp1251 among them) whose codec reads the input as a text, the copy succeeds, reads every input byte and writes that text as UTF-8 |
| ConvertorLemmas.ConvertDecodable | convertor.py:22-52 | the same for a whole conversion |
| ConvertorLemmas.ConvertUtf8Input | convertor.py:22-52 | the same as `DetectAndCopyUtf8` for a whole conversion |
| ConvertorLemmas.ConvertDropsBom | convertor.py:32-36 | a BOM-prefixed UTF-8 file whose detected name contains "utf-8" once normalised is written without its BOM |
| ConvertorLemmas.Utf8SpellingReadsPlain | convertor.py:32-36 | the name "utf8" is not substituted, and its codec reads well-formed bytes back to themselves |
| ConvertorLemmas.DetectAndCopyUnderUtf8Spelling | convertor.py:31-52 | a well-formed file the classifier names "utf8" is copied byte for byte |
| ConvertorLemmas.ConvertKeepsBomUnderUtf8Spelling | convertor.py:22-52 | under the name "utf8", a well-formed BOM-prefixed file converts and its output keeps the BOM |
| ConvertorLemmas.ConvertUtf8IsIdentity | convertor.py:125-160 | UTF-8 without a BOM is copied byte for byte, newlines included |
| ConvertorLemmas.ConvertInPlaceEmptiesInput | convertor.py:125-160 | converting a file onto itself with `overwrite` succeeds with 0 bytes in and out and empties the file |
| Converter.FirstDecodable | converter.py:123-128 | the first name whose strict decoding of the sample succeeds; none exactly when all fail |
| Converter.Detection | converter.py:112-130 | a named match is returned as is with 0.8; otherwise the first fallback that decodes, with 0.8 |
| Converter.DetectEncoding | converter.py:112-130 | the loop returns what `Detection` specifies |
| Converter.FallbackAlwaysDecodes | converter.py:130 | some fallback always decodes, so the `("latin-1", 0.5)` return is unreachable |
| Converter.DetectionConfidenceIsFixed | converter.py:119-130 | the confidence is always 0.8 and the name never empty |
| Converter.FallbackChoice | converter.py:117-128 | without a match: "utf-8-sig" for well-formed UTF-8, else "cp1251" when it decodes, else "latin-1"; never "utf-8" |
| Converter.UniversalNewlines | converter.py:139 | the text read contains no carriage return and is no longer than the raw text; text without one is unchanged |
| Converter.UniversalNewlinesCountsLineEnds | converter.py:139 | the translated text holds one "\n" per line end: each "\r", each "\n", less one per "\r\n" pair |
| Converter.UniversalNewlinesKeepsText | converter.py:139 | every character other than "\r" and "\n" occurs as often after translation as before |
| Converter.UniversalNewlinesAppend | converter.py:139 | text split anywhere except inside a "\r\n" pair translates to the two pieces' translations joined |
| Converter.UniversalNewlinesIdempotent | converter.py:139 | translating twice is translating once |
| Converter.UniversalNewlinesOnLineEnds | converter.py:139 | "\r\n" and a lone "\r" both become "\n" |
| Converter.OpenReplacing | converter.py:139 | the reader never fails; its chunks join to the replacement-decoded text with newlines translated |
| Converter.CopySpec | converter.py:132-159 | fails exactly for a directory output; the result is the input's stat size taken before the copy; the output is the re-encoded text; no other file changes |
| Converter.StreamCopy | converter.py:132-159 | the result and new filesystem are those of `CopySpec` |
| Converter.DetectAndCopy | converter.py:29-45 | fails exactly for a directory output, changing nothing; the report has the detected name and confidence, the stat size and the size written |
| Converter.ConvertSpec | converter.py:20-45 | a failing preflight check returns its error unchanged; every error is one the converter raises; every failure leaves the files as they were; success reports the preflight's output path |
| Converter.Converter.constructor | converter.py:13-18 | stores the input path, output spec and overwrite flag |
| Converter.Converter.Convert | converter.py:20-45 | the result and new filesystem are those of `ConvertSpec` |
| Converter.ConvertOne | converter.py:63-79 | one item per file: its path, exactly one of report or error, a report about that file |
| Converter.RunOne | converter.py:63-79 | the item and new filesystem are those of `ConvertOne` |
| Converter.BatchSpec | converter.py:81-90 | one result per file, the files converted one after another |
| Converter.BatchItemsMatchFiles | converter.py:73-90 | the i-th result is about the i-th file, has exactly one of report or error, and a successful one reports that file |
| Converter.RunBatch | converter.py:81-90 | the results and new filesystem are those of `BatchSpec` |
| Converter.BatchConvert | converter.py:48-90 | a missing root raises FileNotFoundError and no candidates raises ValueError, both before mkdir, changing nothing; a failing mkdir returns its error unchanged; after mkdir, a `workers` below 1 raises ValueError with the directories kept, and otherwise the batch succeeds; on success the results' paths are a permutation of the candidates, converted one after another |
| ConverterLemmas.ConvertSucceedsPastPreflight | converter.py:20-45 | past the checks and mkdir, any input converts unless the output is a directory; the report has the input size and confidence 0.8 |
| ConverterLemmas.DetectAndCopyDecodable | converter.py:132-159 | when the detected codec decodes the input, the output is that text with newlines translated, re-encoded |
| ConverterLemmas.ConvertDecodable | converter.py:20-45 | the same for a whole conversion |
| ConverterLemmas.Utf8NameDecodes | converter.py:119-121 | a classifier name for plain UTF-8 decodes an encoded text back to it |
| ConverterLemmas.ConvertUtf8Input | converter.py:20-45 | a UTF-8 file named plain UTF-8 is written as its text with newlines translated |
| ConverterLemmas.ConvertKeepsBom | converter.py:29-36 | with no "utf-8-sig" substitution, a BOM-prefixed file named UTF-8 and without carriage returns is copied byte for byte, BOM included |
| ConverterLemmas.FeffPrefixedText | converter.py:139-140 | U+FEFF survives newline translation and encodes as the BOM |
| ConverterLemmas.FallbackReadsSig | converter.py:117-128 | without a match, a BOM-prefixed UTF-8 sample is detected as "utf-8-sig", which reads it without the BOM |
| ConverterLemmas.ConvertFallbackDropsBom | converter.py:112-159 | without a match, a small BOM-prefixed UTF-8 file is reported as "utf-8-sig" and written without its BOM |
| ConverterLemmas.ConvertInPlaceEmptiesInput | converter.py:132-159 | converting a file onto itself with `overwrite` reports its former size as bytes in and 0 bytes out, and empties the file |

## Left out

- Concurrency: the asyncio semaphore and `to_thread` (convertor.py:71-84) and the thread pool (converter.py:82-88) are left out. Batches run one file after another. Completion order is not fixed, so `BatchConvert` states only that the results' paths are a permutation of the candidates. Items that write the same output path can interleave differently when run concurrently.
- Convertor.Permits: the semaphore limits only how many conversions run at once, so its size has no effect on the sequential results.
- Progress bars and the `show_progress` branches (convertor.py:138-151, converter.py:142-151) are left out: they repeat the copy loop with display side effects only.
- The charset classifier is an uninterpreted function from the sample to an optional match. Its statistics are not modelled.
- Codecs other than UTF-8, "utf-8-sig" and Latin-1 (cp1251 among them) are abstract functions. So are the text a strict reader hands out before it raises, and replacement decoding where strict decoding fails.
- Codecs.CodecKey: only the canonical spellings ("utf-8", "utf_8", "utf8", "utf-8-sig", "latin-1", "latin1", "iso-8859-1", in any case) are recognised as UTF-8, "utf-8-sig" and Latin-1. Python's collapsing of punctuation runs and its aliases ("u8", "cp65001", "l1", "latin", "iso8859_1", ...) are not modelled, so those spellings fall to the abstract codecs.
- Codec names the registry does not know (`LookupError`) are not modelled. The classifier returns registry names.
- Error texts: `Describe` gives `str(e)` in outline only. A decoding error is reduced to "codec can't decode byte", and an OSError carries only the path.
- Real filesystem behaviour is left out: permissions, symbolic links, glob ordering and case-insensitive file systems. The directory listing order of `_collect_txt_files` is left to the implementation.
- Output newline translation on non-POSIX systems (`os.linesep` other than "\n") is not modelled.
- `confidence` is a real number, not a binary float.
- The reader's chunking by `READ_CHARS` characters is modelled as a split of the decoded text. Its interaction with the decoder's internal buffering is not modelled.
- Files.Consistent: a consistent state keeps files and directories apart and holds "." as a directory, but does not require every ancestor of a file to be a directory. States no operating system could hold are admitted; no lemma relies on them, and mkdir still fails when any ancestor is a file.
- main.py (argument parsing, printing, exit codes) is not part of this model.
- ConverterLemmas.ConvertFallbackDropsBom: stated only for inputs that fit in the 1 MiB detection sample. It gives the output as the translated text, not the input bytes.

=== FILE: codecs.dfy ===
/**
 * The two collaborators the converters cannot see into: the charset
 * classifier (`charset_normalizer.from_bytes(...).best()`) and Python's codec
 * registry. UTF-8, "utf-8-sig" and Latin-1 are given concretely; every other
 * codec is an uninterpreted function supplied by the environment.
 */
module Codecs {
  import opened Wrappers
  import opened Paths
  import Utf8

  type Byte = Utf8.Byte

  /** The best match of the classifier: a codec name and, when it carries one, its own confidence. */
  datatype Match = Match(encoding: string, confidence: Option<real>)

  /**
   * The codecs this model does not define. `strict` is `bytes.decode(name)`;
   * `beforeError` is the text a strict reader hands out in whole reads before
   * it raises; `lenient` is decoding with errors="replace".
   */
  datatype Codecs = Codecs(
    strict: (string, seq<Byte>) -> Option<string>,
    beforeError: (string, seq<Byte>) -> string,
    lenient: (string, seq<Byte>) -> string)

  /** What a conversion depends on besides the filesystem. */
  datatype Environment = Environment(classify: seq<Byte> -> Option<Match>, codecs: Codecs)

  /**
   * The key under which this model looks a codec name up: lower case, with
   * '-' and ' ' read as '_'. Only these canonical spellings are recognised;
   * Python's own normalisation (collapsing punctuation runs) and its alias
   * table are not modelled, so other spellings fall to the abstract codecs.
   */
  function CodecKey(name: string): (k: string)
    ensures |k| == |name|
  {
    seq(|name|, i requires 0 <= i < |name| =>
      var c := LowerChar(name[i]);
      if c == '-' || c == ' ' then '_' else c)
  }

  const UTF8_KEYS: set<string> := {"utf_8", "utf8"}
  const UTF8_SIG_KEY: string := "utf_8_sig"
  const LATIN1_KEYS: set<string> := {"latin_1", "latin1", "iso_8859_1"}

  /** Latin-1: every byte is the code point of the same number, so decoding never fails. */
  function Latin1Decode(b: seq<Byte>): (s: string)
    ensures |s| == |b|
    ensures forall i :: 0 <= i < |b| ==> s[i] as int == b[i]
  {
    seq(|b|, i requires 0 <= i < |b| => b[i] as char)
  }

  /** `b.decode(name)` with errors="strict": the text, or None when the codec raises. */
  function StrictDecode(codecs: Codecs, name: string, b: seq<Byte>): (r: Option<string>)
    ensures b == [] ==> r == Some([])
    ensures CodecKey(name) == UTF8_SIG_KEY ==> r == Utf8.DecodeSig(b)
    ensures CodecKey(name) in UTF8_KEYS ==> r == Utf8.Decode(b)
    ensures CodecKey(name) in LATIN1_KEYS ==> r == Some(Latin1Decode(b))
  {
    if b == [] then Some([])
    else
      var key := CodecKey(name);
      if key == UTF8_SIG_KEY then Utf8.DecodeSig(b)
      else if key in UTF8_KEYS then Utf8.Decode(b)
      else if key in LATIN1_KEYS then Some(Latin1Decode(b))
      else codecs.strict(name, b)
  }

  /**
   * What a strict text reader over `b` decodes in the end. The reader feeds
   * its codec's incremental decoder, which agrees with `b.decode(name)` except
   * for "utf-8-sig" on input that is only a partial BOM: that decoder holds
   * such bytes back as undecided even at the end of input and reports neither
   * text nor an error, so the reader reads "".
   */
  function ReaderDecode(codecs: Codecs, name: string, b: seq<Byte>): (r: Option<string>)
    ensures !Utf8.PartialBom(b) || CodecKey(name) != UTF8_SIG_KEY ==> r == StrictDecode(codecs, name, b)
    ensures Utf8.PartialBom(b) && CodecKey(name) == UTF8_SIG_KEY ==> r == Some([]) && StrictDecode(codecs, name, b).None?
  {
    Utf8.PartialBomRejected(b);
    if CodecKey(name) == UTF8_SIG_KEY && Utf8.PartialBom(b) then Some([])
    else StrictDecode(codecs, name, b)
  }

  /**
   * A text reader opened with `errors="replace"`: never fails, and agrees with
   * the strict reader (so with strict decoding) wherever that succeeds.
   */
  function ReplaceDecode(codecs: Codecs, name: string, b: seq<Byte>): (r: string)
    ensures StrictDecode(codecs, name, b).Some? ==> r == StrictDecode(codecs, name, b).value
    ensures ReaderDecode(codecs, name, b).Some? ==> r == ReaderDecode(codecs, name, b).value
  {
    match ReaderDecode(codecs, name, b)
    case Some(t) => t
    case None => codecs.lenient(name, b)
  }

  /** The four names of the prototype's fallback chain resolve to the codecs this model defines. */
  lemma FallbackNamesResolve()
    ensures CodecKey("utf-8-sig") == UTF8_SIG_KEY
    ensures CodecKey("utf-8") in UTF8_KEYS
    ensures CodecKey("latin-1") in LATIN1_KEYS
    ensures CodecKey("cp1251") !in UTF8_KEYS + LATIN1_KEYS + {UTF8_SIG_KEY}
  {
    assert CodecKey("utf-8-sig") == "utf_8_sig";
    assert CodecKey("utf-8") == "utf_8";
    assert CodecKey("latin-1") == "latin_1";
    assert CodecKey("cp1251") == "cp1251";
  }
}

=== FILE: converter.dfy ===
/**
 * The prototype converter (converter.py): detection never fails (a classifier
 * match, else the first of a fixed chain of codecs that decodes the sample),
 * decoding replaces undecodable bytes, the input is read with universal
 * newlines, and the batch runs on a thread pool whose size is not clamped.
 */
module Converter {
  import opened Wrappers
  import opened Paths
  import opened Models
  import opened Files
  import opened Streams
  import opened Pipeline
  import opened Codecs
  import Utf8

  /** The fixed confidence the prototype reports for every detection it makes. */
  const CONFIDENCE: real := 0.8

  const FALLBACK_ENCODINGS: seq<string> := ["utf-8-sig", "utf-8", "cp1251", "latin-1"]

  /** The position of the first name in `names` whose strict decode of `sample` succeeds. */
  function FirstDecodable(codecs: Codecs, names: seq<string>, sample: seq<Byte>): (r: Option<nat>)
    ensures r.Some? ==> r.value < |names| && StrictDecode(codecs, names[r.value], sample).Some?
    ensures r.Some? ==> forall j :: 0 <= j < r.value ==> StrictDecode(codecs, names[j], sample).None?
    ensures r.None? <==> forall j :: 0 <= j < |names| ==> StrictDecode(codecs, names[j], sample).None?
  {
    if names == [] then None
    else if StrictDecode(codecs, names[0], sample).Some? then Some(0)
    else
      match FirstDecodable(codecs, names[1..], sample)
      case None => None
      case Some(i) => Some(i + 1)
  }

  /**
   * What `_detect_encoding` returns for a sample: the classifier's name with
   * the fixed confidence, else the first fallback that decodes, else
   * ("latin-1", 0.5).
   */
  function Detection(classify: seq<Byte> -> Option<Match>, codecs: Codecs, sample: seq<Byte>): (r: (string, real))
    ensures classify(sample).Some? && classify(sample).value.encoding != "" ==>
      r == (classify(sample).value.encoding, CONFIDENCE)
  {
    if classify(sample).Some? && classify(sample).value.encoding != "" then
      (classify(sample).value.encoding, CONFIDENCE)
    else
      match FirstDecodable(codecs, FALLBACK_ENCODINGS, sample)
      case Some(i) => (FALLBACK_ENCODINGS[i], CONFIDENCE)
      case None => ("latin-1", 0.5)
  }

  /** `_detect_encoding`: the fallback chain is tried in order, each decode strict. */
  method DetectEncoding(classify: seq<Byte> -> Option<Match>, codecs: Codecs, sample: seq<Byte>)
    returns (encoding: string, confidence: real)
    ensures (encoding, confidence) == Detection(classify, codecs, sample)
  {
    var best := classify(sample);
    if best.Some? && best.value.encoding != "" {
      return best.value.encoding, CONFIDENCE;
    }
    for i := 0 to |FALLBACK_ENCODINGS|
      invariant forall j :: 0 <= j < i ==> StrictDecode(codecs, FALLBACK_ENCODINGS[j], sample).None?
    {
      if StrictDecode(codecs, FALLBACK_ENCODINGS[i], sample).Some? {
        return FALLBACK_ENCODINGS[i], CONFIDENCE;
      }
    }
    return "latin-1", 0.5;
  }

  /** Latin-1 decodes every sample, so the chain always ends with a name. */
  lemma FallbackAlwaysDecodes(codecs: Codecs, sample: seq<Byte>)
    ensures FirstDecodable(codecs, FALLBACK_ENCODINGS, sample).Some?
  {
    FallbackNamesResolve();
    assert StrictDecode(codecs, FALLBACK_ENCODINGS[3], sample).Some?;
  }

  /**
   * Detection never fails and always reports 0.8: the closing
   * ("latin-1", 0.5) is unreachable.
   */
  lemma DetectionConfidenceIsFixed(classify: seq<Byte> -> Option<Match>, codecs: Codecs, sample: seq<Byte>)
    ensures Detection(classify, codecs, sample).1 == CONFIDENCE
    ensures Detection(classify, codecs, sample).0 != ""
  {
    FallbackAlwaysDecodes(codecs, sample);
  }

  /**
   * Without a classifier match, the chain picks "utf-8-sig" for well-formed
   * UTF-8 (with or without a BOM), else "cp1251" when that decodes, else
   * "latin-1"; plain "utf-8" accepts the same samples as "utf-8-sig" and is
   * never chosen.
   */
  lemma FallbackChoice(classify: seq<Byte> -> Option<Match>, codecs: Codecs, sample: seq<Byte>)
    requires classify(sample).None? || classify(sample).value.encoding == ""
    ensures Detection(classify, codecs, sample).0 ==
      if Utf8.WellFormed(sample) then "utf-8-sig"
      else if StrictDecode(codecs, "cp1251", sample).Some? then "cp1251"
      else "latin-1"
    ensures Detection(classify, codecs, sample).0 != "utf-8"
  {
    FallbackNamesResolve();
    FallbackAlwaysDecodes(codecs, sample);
    Utf8.DecodeIffWellFormed(sample);
    if sample != [] {
      Utf8.DecodeSigAccepts(sample);
    }
    var fb := FALLBACK_ENCODINGS;
    var i := FirstDecodable(codecs, fb, sample).value;
    assert StrictDecode(codecs, fb[0], sample).Some? <==> Utf8.WellFormed(sample);
    assert StrictDecode(codecs, fb[1], sample).Some? <==> Utf8.WellFormed(sample);
    assert StrictDecode(codecs, fb[3], sample).Some?;
    if Utf8.WellFormed(sample) {
      assert i == 0;
    } else if StrictDecode(codecs, fb[2], sample).Some? {
      assert i == 2;
    } else {
      assert i == 3;
    }
  }

  /**
   * Universal newlines (`open(..., "r")` with the default `newline=None`):
   * "\r\n" and a lone "\r" are both read as "\n".
   */
  function UniversalNewlines(s: string): (r: string)
    ensures forall i :: 0 <= i < |r| ==> r[i] != '\r'
    ensures (forall i :: 0 <= i < |s| ==> s[i] != '\r') ==> r == s
    ensures |r| <= |s|
  {
    if s == [] then []
    else if s[0] == '\r' then
      if |s| > 1 && s[1] == '\n' then "\n" + UniversalNewlines(s[2..])
      else "\n" + UniversalNewlines(s[1..])
    else [s[0]] + UniversalNewlines(s[1..])
  }

  /** Reading text back in is a no-op on text it produced: the translation is idempotent. */
  lemma UniversalNewlinesIdempotent(s: string)
    ensures UniversalNewlines(UniversalNewlines(s)) == UniversalNewlines(s)
  {
  }

  /** The number of occurrences of `c` in `s`. */
  function Count(s: string, c: char): nat {
    if s == [] then 0 else (if s[0] == c then 1 else 0) + Count(s[1..], c)
  }

  /** The number of "\r\n" pairs in `s`. */
  function CrLfPairs(s: string): nat {
    if |s| < 2 then 0 else (if s[0] == '\r' && s[1] == '\n' then 1 else 0) + CrLfPairs(s[1..])
  }

  /**
   * Every line end becomes exactly one "\n": the result has as many "\n" as
   * `s` has line ends, counting "\r", "\n" and "\r\n" once each.
   */
  lemma {:induction false} UniversalNewlinesCountsLineEnds(s: string)
    ensures Count(UniversalNewlines(s), '\n') == Count(s, '\r') + Count(s, '\n') - CrLfPairs(s)
    decreases |s|
  {
    if s == [] {
    } else if s[0] == '\r' && |s| > 1 && s[1] == '\n' {
      UniversalNewlinesCountsLineEnds(s[2..]);
      assert s[1..][1..] == s[2..];
      assert UniversalNewlines(s) == "\n" + UniversalNewlines(s[2..]);
      assert ("\n" + UniversalNewlines(s[2..]))[1..] == UniversalNewlines(s[2..]);
    } else if s[0] == '\r' {
      UniversalNewlinesCountsLineEnds(s[1..]);
      assert UniversalNewlines(s) == "\n" + UniversalNewlines(s[1..]);
      assert ("\n" + UniversalNewlines(s[1..]))[1..] == UniversalNewlines(s[1..]);
    } else {
      UniversalNewlinesCountsLineEnds(s[1..]);
      assert UniversalNewlines(s) == [s[0]] + UniversalNewlines(s[1..]);
      assert ([s[0]] + UniversalNewlines(s[1..]))[1..] == UniversalNewlines(s[1..]);
    }
  }

  /** Characters other than "\r" and "\n" are neither added nor dropped. */
  lemma {:induction false} UniversalNewlinesKeepsText(s: string, c: char)
    requires c != '\r' && c != '\n'
    ensures Count(UniversalNewlines(s), c) == Count(s, c)
    decreases |s|
  {
    if s == [] {
    } else if s[0] == '\r' && |s| > 1 && s[1] == '\n' {
      UniversalNewlinesKeepsText(s[2..], c);
      assert s[1..][1..] == s[2..];
      assert ("\n" + UniversalNewlines(s[2..]))[1..] == UniversalNewlines(s[2..]);
    } else if s[0] == '\r' {
      UniversalNewlinesKeepsText(s[1..], c);
      assert ("\n" + UniversalNewlines(s[1..]))[1..] == UniversalNewlines(s[1..]);
    } else {
      UniversalNewlinesKeepsText(s[1..], c);
      assert ([s[0]] + UniversalNewlines(s[1..]))[1..] == UniversalNewlines(s[1..]);
    }
  }

  /** How many characters the first step of the translation consumes: two for a "\r\n" pair, one otherwise. */
  function StepWidth(s: string): (w: nat)
    requires s != []
    ensures 1 <= w <= |s|
    ensures w == 2 <==> s[0] == '\r' && |s| > 1 && s[1] == '\n'
  {
    if s[0] == '\r' && |s| > 1 && s[1] == '\n' then 2 else 1
  }

  /** What the first step of the translation emits. */
  function StepOutput(s: string): (h: string)
    requires s != []
    ensures |h| == 1 && (h[0] == '\n' <==> s[0] == '\r' || s[0] == '\n')
  {
    if s[0] == '\r' then "\n" else [s[0]]
  }

  /** One step of the translation: the first line end or character, then the rest. */
  lemma UniversalNewlinesStep(s: string)
    requires s != []
    ensures UniversalNewlines(s) == StepOutput(s) + UniversalNewlines(s[StepWidth(s)..])
  {
  }

  /**
   * Translation works piece by piece: text split anywhere except between the
   * "\r" and "\n" of a pair translates to the two translations joined.
   */
  lemma {:induction false} UniversalNewlinesAppend(a: string, b: string)
    requires a == [] || a[|a| - 1] != '\r'
    ensures UniversalNewlines(a + b) == UniversalNewlines(a) + UniversalNewlines(b)
    decreases |a|
  {
    if a == [] {
      assert a + b == b;
    } else {
      var rest := a[StepWidth(a)..];
      UniversalNewlinesStep(a);
      StepOfAppend(a, b);
      UniversalNewlinesAppend(rest, b);
      JoinAfterStep(StepOutput(a), UniversalNewlines(a + b), UniversalNewlines(a),
                    UniversalNewlines(rest), UniversalNewlines(b));
    }
  }

  /** Prefixing both halves of a join with the same first step. */
  lemma JoinAfterStep(h: string, whole: string, left: string, restOut: string, right: string)
    requires whole == h + (restOut + right) && left == h + restOut
    ensures whole == left + right
  {
  }

  /**
   * Text that does not end in "\r" starts its translation the same way whatever
   * follows it, and what is left of it still does not end in "\r".
   */
  lemma StepOfAppend(a: string, b: string)
    requires a != [] && a[|a| - 1] != '\r'
    ensures UniversalNewlines(a + b) == StepOutput(a) + UniversalNewlines(a[StepWidth(a)..] + b)
    ensures a[StepWidth(a)..] == [] || a[|a| - 1] == a[StepWidth(a)..][|a[StepWidth(a)..]| - 1]
  {
    // A leading "\r" is not a's last character, so its successor lies in a too.
    assert (a + b)[0] == a[0];
    assert a[0] == '\r' ==> |a| > 1 && (a + b)[1] == a[1];
    assert StepWidth(a + b) == StepWidth(a) && StepOutput(a + b) == StepOutput(a);
    assert (a + b)[StepWidth(a)..] == a[StepWidth(a)..] + b;
    UniversalNewlinesStep(a + b);
  }

  /** Windows and classic Mac line ends are both rewritten. */
  lemma UniversalNewlinesOnLineEnds()
    ensures UniversalNewlines("a\r\nb\rc\n") == "a\nb\nc\n"
  {
    assert "a\r\nb\rc\n"[1..] == "\r\nb\rc\n";
    assert "\r\nb\rc\n"[2..] == "b\rc\n";
    assert "b\rc\n"[1..] == "\rc\n";
    assert "\rc\n"[1..] == "c\n";
    assert "c\n"[1..] == "\n";
    assert "\n"[1..] == [];
  }

  /**
   * The input opened with errors="replace" and universal newlines: a reader
   * that never raises.
   */
  function OpenReplacing(codecs: Codecs, enc: string, data: seq<Byte>): (s: Stream)
    ensures WellChunked(s.chunks) && !s.fails
    ensures Concat(s.chunks) == UniversalNewlines(ReplaceDecode(codecs, enc, data))
  {
    Stream(Chunks(UniversalNewlines(ReplaceDecode(codecs, enc, data))), false)
  }

  /**
   * `_stream_copy` as a function of the filesystem: the input's size is taken
   * first, then the output is opened for writing (truncating it) before
   * anything is read. It fails only when the output cannot be opened.
   */
  function CopySpec(st: FsState, inFile: Path, outFile: Path, enc: string, codecs: Codecs): (o: CopyOutcome)
    requires inFile in st.files
    ensures o.after.dirs == st.dirs
    ensures o.result.Err? <==> outFile in st.dirs
    ensures outFile in st.dirs ==> o == CopyOutcome(Err(OSError(outFile)), st)
    ensures outFile !in st.dirs ==> o.after.files.Keys == st.files.Keys + {outFile}
    ensures forall p :: p in st.files && p != outFile ==> p in o.after.files && o.after.files[p] == st.files[p]
    ensures outFile !in st.dirs ==>
      var data := if inFile == outFile then [] else st.files[inFile];
      && o.result == Ok(|st.files[inFile]|)
      && o.after.files[outFile] == Utf8.Encode(UniversalNewlines(ReplaceDecode(codecs, enc, data)))
  {
    var totalBytes := |st.files[inFile]|;
    if outFile in st.dirs then CopyOutcome(Err(OSError(outFile)), st)
    else
      var truncated := st.(files := st.files[outFile := []]);
      var s := OpenReplacing(codecs, enc, truncated.files[inFile]);
      CopyOutcome(Ok(totalBytes), truncated.(files := truncated.files[outFile := Utf8.Encode(Concat(s.chunks))]))
  }

  /** `_stream_copy`: returns the size `stat` gave before the copy. */
  method StreamCopy(fs: FileSystem, inFile: Path, outFile: Path, srcEncoding: string, codecs: Codecs)
    returns (r: Result<nat, Error>)
    requires fs.Valid() && inFile in fs.files && outFile != []
    modifies fs
    ensures fs.Valid()
    ensures CopyOutcome(r, fs.State()) == CopySpec(old(fs.State()), inFile, outFile, srcEncoding, codecs)
  {
    var totalBytes := |fs.files[inFile]|;
    var truncated := fs.OpenForWriting(outFile);
    if truncated.Err? {
      return Err(truncated.error);
    }
    var data := fs.files[inFile];
    assert fs.files[outFile] == [];
    var reader := new ChunkReader(OpenReplacing(codecs, srcEncoding, data), data);
    var copied := CopyChunks(fs, reader, outFile);
    assert [] + Utf8.Encode(Concat(reader.chunks)) == Utf8.Encode(Concat(reader.chunks));
    r := Ok(totalBytes);
  }

  /**
   * The part of `convert` after the output's parent exists. Detection cannot
   * fail and decoding replaces bad bytes, so this fails only when the output
   * is a directory; the confidence is always 0.8.
   */
  function DetectAndCopy(st: FsState, input: Path, out: Path, env: Environment): (o: Outcome)
    requires Consistent(st) && input in st.files && out != []
    ensures Consistent(o.after)
    ensures forall p :: p in st.files && p != out ==> p in o.after.files && o.after.files[p] == st.files[p]
    ensures o.result.Err? <==> out in st.dirs
    ensures o.result.Err? ==> o == Outcome(Err(OSError(out)), st)
    ensures o.result.Ok? ==>
      var rep := o.result.value;
      var d := Detection(env.classify, env.codecs, Sample(st.files[input]));
      && out in o.after.files
      && rep == ConversionReport(input, out, d.0, d.1, |st.files[input]|, |o.after.files[out]|)
      && o.after.files[out] == Utf8.Encode(UniversalNewlines(ReplaceDecode(env.codecs, d.0,
           if input == out then [] else st.files[input])))
  {
    var detected := Detection(env.classify, env.codecs, Sample(st.files[input]));
    var copy := CopySpec(st, input, out, detected.0, env.codecs);
    match copy.result
    case Err(e) => Outcome(Err(e), copy.after)
    case Ok(bytesIn) =>
      Outcome(Ok(ConversionReport(input, out, detected.0, detected.1, bytesIn, |copy.after.files[out]|)), copy.after)
  }

  /** `Converter.convert` as a function of the filesystem. */
  function ConvertSpec(st: FsState, input: Path, spec: Path, overwrite: bool, env: Environment): (o: Outcome)
    requires Consistent(st)
    ensures Consistent(o.after)
    ensures Preflight(st, input, spec, overwrite).Err? ==> o == Outcome(Err(Preflight(st, input, spec, overwrite).error), st)
    ensures o.result.Err? ==> o.after.files == st.files
    ensures o.result.Err? ==> Raised(o.result.error)
    ensures o.result.Ok? ==>
      && Preflight(st, input, spec, overwrite) == Ok(o.result.value.outputPath)
      && o.result.value.inputPath == input
      && o.result.value.outputPath in o.after.files
      && o.result.value.bytesIn == |st.files[input]|
      && o.result.value.bytesOut == |o.after.files[o.result.value.outputPath]|
    ensures forall p :: p in st.files && Preflight(st, input, spec, overwrite) != Ok(p) ==>
      p in o.after.files && o.after.files[p] == st.files[p]
  {
    match Preflight(st, input, spec, overwrite)
    case Err(e) => Outcome(Err(e), st)
    case Ok(out) =>
      match MakeDirsSpec(st, Parent(out))
      case Err(e) => Outcome(Err(e), st)
      case Ok(st1) => DetectAndCopy(st1, input, out, env)
  }

  class Converter {
    const inputPath: Path
    const outputPath: Path
    const overwrite: bool

    constructor (inputPath: Path, outputPath: Path, overwrite: bool)
      ensures this.inputPath == inputPath && this.outputPath == outputPath && this.overwrite == overwrite
    {
      this.inputPath, this.outputPath, this.overwrite := inputPath, outputPath, overwrite;
    }

    /** `convert`: the report, or the first exception raised. */
    method Convert(fs: FileSystem, env: Environment) returns (r: Result<ConversionReport, Error>)
      requires fs.Valid()
      modifies fs
      ensures fs.Valid()
      ensures Outcome(r, fs.State()) == ConvertSpec(old(fs.State()), inputPath, outputPath, overwrite, env)
    {
      var invalid := EnsureInputTxt(fs.State(), inputPath);
      if invalid.Some? {
        return Err(invalid.value);
      }
      var outPath := MakeOutputPath(fs.State(), inputPath, outputPath, false);
      if Exists(fs.State(), outPath) && !overwrite {
        return Err(FileExists(outPath));
      }
      TxtSuffixIsNonEmpty(inputPath);
      var made := fs.MakeDirs(Parent(outPath));
      if made.Err? {
        return Err(made.error);
      }
      var sourceEnc, encConf := DetectEncoding(env.classify, env.codecs, Sample(fs.files[inputPath]));
      var bytesIn := StreamCopy(fs, inputPath, outPath, sourceEnc, env.codecs);
      if bytesIn.Err? {
        return Err(bytesIn.error);
      }
      r := Ok(ConversionReport(inputPath, outPath, sourceEnc, encConf, bytesIn.value, |fs.files[outPath]|));
    }
  }

  /**
   * `convert_single` as a function of the filesystem: convert `p` to `out_dir / p.name`
   * and catch whatever is raised into the item.
   */
  function ConvertOne(st: FsState, p: Path, outDir: Path, overwrite: bool, env: Environment): (r: (BatchItemResult, FsState))
    requires Consistent(st)
    ensures Consistent(r.1)
    ensures r.0.path == p && OneOutcome(r.0)
    ensures r.0.ok ==> r.0.report.Some? && r.0.report.value.inputPath == p
  {
    var o := ConvertSpec(st, p, MakeOutputPath(st, p, outDir, true), overwrite, env);
    (ItemOf(p, o.result), o.after)
  }

  /** `convert_single`: one file of the batch. */
  method RunOne(fs: FileSystem, p: Path, outDir: Path, overwrite: bool, env: Environment) returns (item: BatchItemResult)
    requires fs.Valid()
    modifies fs
    ensures fs.Valid()
    ensures (item, fs.State()) == ConvertOne(old(fs.State()), p, outDir, overwrite, env)
  {
    var converter := new Converter(p, MakeOutputPath(fs.State(), p, outDir, true), overwrite);
    var r := converter.Convert(fs, env);
    item := ItemOf(p, r);
  }

  /** The conversions of a batch, one after another, in the order of `files`. */
  function BatchSpec(st: FsState, files: seq<Path>, outDir: Path, overwrite: bool, env: Environment): (r: (seq<BatchItemResult>, FsState))
    requires Consistent(st)
    ensures Consistent(r.1) && |r.0| == |files|
    decreases |files|
  {
    if files == [] then ([], st)
    else
      var prev := BatchSpec(st, files[..|files| - 1], outDir, overwrite, env);
      var one := ConvertOne(prev.1, files[|files| - 1], outDir, overwrite, env);
      (prev.0 + [one.0], one.1)
  }

  /** One item per file, in order: item `i` is the outcome of `files[i]`. */
  lemma {:induction false} BatchItemsMatchFiles(st: FsState, files: seq<Path>, outDir: Path, overwrite: bool, env: Environment)
    requires Consistent(st)
    ensures ItemsMatch(BatchSpec(st, files, outDir, overwrite, env).0, files)
    decreases |files|
  {
    if files == [] {
      assert PathsOf([]) == [];
    } else {
      var init := files[..|files| - 1];
      BatchItemsMatchFiles(st, init, outDir, overwrite, env);
      var prev := BatchSpec(st, init, outDir, overwrite, env);
      var one := ConvertOne(prev.1, files[|files| - 1], outDir, overwrite, env);
      ItemsMatchAppend(prev.0, init, one.0, files[|files| - 1]);
      SplitLast(files);
    }
  }

  /** One more file of a batch: its item is appended and its conversion applied to the state so far. */
  lemma BatchSpecStep(st: FsState, files: seq<Path>, i: nat, outDir: Path, overwrite: bool, env: Environment)
    requires Consistent(st) && i < |files|
    ensures var prev := BatchSpec(st, files[..i], outDir, overwrite, env);
      var one := ConvertOne(prev.1, files[i], outDir, overwrite, env);
      BatchSpec(st, files[..i + 1], outDir, overwrite, env) == (prev.0 + [one.0], one.1)
  {
    PrefixOfPrefix(files, i);
  }

  /** The batch's conversions, run in the order of `files`. */
  method RunBatch(fs: FileSystem, files: seq<Path>, outDir: Path, overwrite: bool, env: Environment)
    returns (results: seq<BatchItemResult>)
    requires fs.Valid()
    modifies fs
    ensures fs.Valid()
    ensures (results, fs.State()) == BatchSpec(old(fs.State()), files, outDir, overwrite, env)
  {
    ghost var st0 := fs.State();
    results := [];
    for i := 0 to |files|
      invariant fs.Valid()
      invariant (results, fs.State()) == BatchSpec(st0, files[..i], outDir, overwrite, env)
    {
      var item := RunOne(fs, files[i], outDir, overwrite, env);
      BatchSpecStep(st0, files, i, outDir, overwrite, env);
      results := results + [item];
    }
    assert files[..|files|] == files;
  }

  /**
   * `batch_convert`: as in the live converter, except that `workers` goes to
   * the thread pool unclamped, so a count below 1 raises after the output
   * directory has been created.
   */
  method BatchConvert(fs: FileSystem, root: Path, outDir: Path, overwrite: bool, workers: int, recursive: bool, env: Environment)
    returns (r: Result<seq<BatchItemResult>, Error>)
    requires fs.Valid()
    modifies fs
    ensures fs.Valid()
    ensures !Exists(old(fs.State()), root) ==> r == Err(FileNotFound(root)) && fs.State() == old(fs.State())
    ensures Exists(old(fs.State()), root) && TxtCandidates(old(fs.State()), root, recursive) == {} ==>
      r == Err(ValueError(NO_TXT_FILES)) && fs.State() == old(fs.State())
    ensures Exists(old(fs.State()), root) && TxtCandidates(old(fs.State()), root, recursive) != {} ==>
      match MakeDirsSpec(old(fs.State()), outDir)
      case Err(e) => r == Err(e) && fs.State() == old(fs.State())
      case Ok(st1) =>
        && (workers < 1 ==> r == Err(ValueError(BAD_WORKERS)) && fs.State() == st1)
        && (workers >= 1 ==> r.Ok?)
    ensures r.Ok? ==> workers >= 1
    ensures r.Ok? ==>
      && multiset(PathsOf(r.value)) == multiset(TxtCandidates(old(fs.State()), root, recursive))
      && (r.value, fs.State()) == BatchSpec(MakeDirsSpec(old(fs.State()), outDir).value, PathsOf(r.value), outDir, overwrite, env)
  {
    var collected := CollectTxtFiles(fs, root, recursive);
    if collected.Err? {
      return Err(collected.error);
    }
    var files := collected.value;
    DistinctListIsPermutation(files, TxtCandidates(fs.State(), root, recursive));
    if files == [] {
      return Err(ValueError(NO_TXT_FILES));
    }
    var made := fs.MakeDirs(outDir);
    if made.Err? {
      return Err(made.error);
    }
    if workers < 1 {
      return Err(ValueError(BAD_WORKERS));
    }
    ghost var st1 := fs.State();
    var results := RunBatch(fs, files, outDir, overwrite, env);
    BatchItemsMatchFiles(st1, files, outDir, overwrite, env);
    r := Ok(results);
  }
}

=== FILE: converter_lemmas.dfy ===
/**
 * What whole conversions of the prototype do to particular inputs: success
 * past the preflight checks, newline rewriting, the BOM kept or dropped
 * depending on the detected name, and conversion onto itself.
 */
module ConverterLemmas {
  import opened Wrappers
  import opened Paths
  import opened Models
  import opened Files
  import opened Pipeline
  import opened Codecs
  import opened Converter
  import Utf8

  /**
   * Past the preflight checks and mkdir, the prototype converts any bytes at
   * all, unless the output is an existing directory; the report carries the
   * stat size of the input and the fixed confidence.
   */
  lemma ConvertSucceedsPastPreflight(st: FsState, input: Path, spec: Path, overwrite: bool, env: Environment)
    requires Consistent(st)
    requires Preflight(st, input, spec, overwrite).Ok?
    requires var out := Preflight(st, input, spec, overwrite).value;
      out !in st.dirs && MakeDirsSpec(st, Parent(out)).Ok?
    ensures var o := ConvertSpec(st, input, spec, overwrite, env);
      && o.result.Ok?
      && o.result.value.bytesIn == |st.files[input]|
      && o.result.value.confidence == CONFIDENCE
  {
    var out := Preflight(st, input, spec, overwrite).value;
    var st1 := MakeDirsSpec(st, Parent(out)).value;
    assert out !in Prefixes(Parent(out));
    assert ConvertSpec(st, input, spec, overwrite, env) == DetectAndCopy(st1, input, out, env);
    DetectionConfidenceIsFixed(env.classify, env.codecs, Sample(st1.files[input]));
  }

  /**
   * When the detected codec decodes the whole input strictly, the output is
   * the UTF-8 encoding of that text with line ends rewritten.
   */
  lemma DetectAndCopyDecodable(st: FsState, input: Path, out: Path, env: Environment, text: string)
    requires Consistent(st) && input in st.files && out != [] && out != input && out !in st.dirs
    requires StrictDecode(env.codecs, Detection(env.classify, env.codecs, Sample(st.files[input])).0, st.files[input]) == Some(text)
    ensures var o := DetectAndCopy(st, input, out, env);
      && o.result.Ok?
      && o.result.value.detectedEncoding == Detection(env.classify, env.codecs, Sample(st.files[input])).0
      && o.after.files[out] == Utf8.Encode(UniversalNewlines(text))
  {
  }

  /** `DetectAndCopyDecodable` for a whole conversion. */
  lemma ConvertDecodable(st: FsState, input: Path, spec: Path, overwrite: bool, env: Environment, text: string)
    requires Consistent(st)
    requires Preflight(st, input, spec, overwrite).Ok?
    requires var out := Preflight(st, input, spec, overwrite).value;
      out != input && out !in st.dirs && MakeDirsSpec(st, Parent(out)).Ok?
    requires StrictDecode(env.codecs, Detection(env.classify, env.codecs, Sample(st.files[input])).0, st.files[input]) == Some(text)
    ensures var o := ConvertSpec(st, input, spec, overwrite, env);
      && o.result.Ok?
      && o.result.value.detectedEncoding == Detection(env.classify, env.codecs, Sample(st.files[input])).0
      && o.after.files[o.result.value.outputPath] == Utf8.Encode(UniversalNewlines(text))
  {
    var out := Preflight(st, input, spec, overwrite).value;
    var st1 := MakeDirsSpec(st, Parent(out)).value;
    assert out !in Prefixes(Parent(out));
    assert ConvertSpec(st, input, spec, overwrite, env) == DetectAndCopy(st1, input, out, env);
    DetectAndCopyDecodable(st1, input, out, env, text);
  }

  /** A name the codec registry reads as plain UTF-8 decodes an encoded text back to it. */
  lemma Utf8NameDecodes(classify: seq<Byte> -> Option<Match>, codecs: Codecs, data: seq<Byte>, text: string)
    requires data == Utf8.Encode(text)
    requires classify(Sample(data)).Some? && CodecKey(classify(Sample(data)).value.encoding) in UTF8_KEYS
    ensures StrictDecode(codecs, Detection(classify, codecs, Sample(data)).0, data) == Some(text)
  {
    Utf8.DecodeEncode(text);
  }

  /**
   * A UTF-8 file the classifier names plain UTF-8 ("utf_8", "utf8", ...) is
   * copied as its text with line ends rewritten by universal newlines.
   */
  lemma ConvertUtf8Input(st: FsState, input: Path, spec: Path, overwrite: bool, env: Environment, text: string)
    requires Consistent(st)
    requires Preflight(st, input, spec, overwrite).Ok?
    requires var out := Preflight(st, input, spec, overwrite).value;
      out != input && out !in st.dirs && MakeDirsSpec(st, Parent(out)).Ok?
    requires st.files[input] == Utf8.Encode(text)
    requires env.classify(Sample(st.files[input])).Some?
    requires CodecKey(env.classify(Sample(st.files[input])).value.encoding) in UTF8_KEYS
    ensures var o := ConvertSpec(st, input, spec, overwrite, env);
      o.result.Ok? && o.after.files[o.result.value.outputPath] == Utf8.Encode(UniversalNewlines(text))
  {
    Utf8NameDecodes(env.classify, env.codecs, st.files[input], text);
    ConvertDecodable(st, input, spec, overwrite, env, text);
  }

  /**
   * With no "utf-8-sig" substitution, a BOM survives: a BOM-prefixed file
   * without carriage returns that the classifier names plain UTF-8 is copied
   * byte for byte, BOM included.
   */
  lemma ConvertKeepsBom(st: FsState, input: Path, spec: Path, overwrite: bool, env: Environment, rest: string)
    requires Consistent(st)
    requires Preflight(st, input, spec, overwrite).Ok?
    requires var out := Preflight(st, input, spec, overwrite).value;
      out != input && out !in st.dirs && MakeDirsSpec(st, Parent(out)).Ok?
    requires st.files[input] == Utf8.BOM + Utf8.Encode(rest)
    requires forall i :: 0 <= i < |rest| ==> rest[i] != '\r'
    requires env.classify(Sample(st.files[input])).Some?
    requires CodecKey(env.classify(Sample(st.files[input])).value.encoding) in UTF8_KEYS
    ensures var o := ConvertSpec(st, input, spec, overwrite, env);
      o.result.Ok? && o.after.files[o.result.value.outputPath] == st.files[input]
      && Utf8.StartsWithBom(o.after.files[o.result.value.outputPath])
  {
    var text := ['\U{FEFF}'] + rest;
    FeffPrefixedText(rest);
    ConvertUtf8Input(st, input, spec, overwrite, env, text);
    Utf8.EncodedStartsWithBom(text);
  }

  /** U+FEFF before a text without carriage returns: newline translation keeps it, and it encodes as the BOM. */
  lemma FeffPrefixedText(rest: string)
    requires forall i :: 0 <= i < |rest| ==> rest[i] != '\r'
    ensures var text := ['\U{FEFF}'] + rest;
      UniversalNewlines(text) == text && Utf8.Encode(text) == Utf8.BOM + Utf8.Encode(rest)
  {
    var text := ['\U{FEFF}'] + rest;
    assert text[0] == '\U{FEFF}' && text[1..] == rest;
    Utf8.BomIsEncodedFeff();
  }

  /**
   * Without a classifier match, a BOM-prefixed UTF-8 sample is detected as
   * "utf-8-sig", which reads it back without the BOM.
   */
  lemma FallbackReadsSig(classify: seq<Byte> -> Option<Match>, codecs: Codecs, data: seq<Byte>, rest: string)
    requires data == Utf8.BOM + Utf8.Encode(rest) && |data| <= DETECT_MAX_BYTES
    requires classify(data).None?
    ensures Detection(classify, codecs, Sample(data)).0 == "utf-8-sig"
    ensures StrictDecode(codecs, Detection(classify, codecs, Sample(data)).0, data) == Some(rest)
  {
    FallbackNamesResolve();
    Utf8.DecodeSigDropsBom(rest);
    Utf8.DecodeSigAccepts(data);
    assert Sample(data) == data;
    FallbackChoice(classify, codecs, data);
  }

  /**
   * When the classifier finds nothing, a small BOM-prefixed UTF-8 file is
   * detected as "utf-8-sig": the BOM is dropped and the rest is copied with
   * its line ends rewritten.
   */
  lemma ConvertFallbackDropsBom(st: FsState, input: Path, spec: Path, overwrite: bool, env: Environment, rest: string)
    requires Consistent(st)
    requires Preflight(st, input, spec, overwrite).Ok?
    requires var out := Preflight(st, input, spec, overwrite).value;
      out != input && out !in st.dirs && MakeDirsSpec(st, Parent(out)).Ok?
    requires st.files[input] == Utf8.BOM + Utf8.Encode(rest) && |st.files[input]| <= DETECT_MAX_BYTES
    requires env.classify(st.files[input]).None?
    ensures var o := ConvertSpec(st, input, spec, overwrite, env);
      && o.result.Ok? && o.result.value.detectedEncoding == "utf-8-sig"
      && o.after.files[o.result.value.outputPath] == Utf8.Encode(UniversalNewlines(rest))
  {
    FallbackReadsSig(env.classify, env.codecs, st.files[input], rest);
    ConvertDecodable(st, input, spec, overwrite, env, rest);
  }

  /**
   * Converting a file onto itself with `overwrite`: the file ends up empty,
   * while the report still gives its former size as `bytesIn`.
   */
  lemma ConvertInPlaceEmptiesInput(st: FsState, input: Path, overwrite: bool, env: Environment)
    requires Consistent(st) && input in st.files && HasTxtSuffix(input) && overwrite
    requires MakeDirsSpec(st, Parent(input)).Ok?
    ensures var o := ConvertSpec(st, input, input, overwrite, env);
      && o.result.Ok?
      && o.result.value.bytesIn == |st.files[input]| && o.result.value.bytesOut == 0
      && o.after.files == st.files[input := []]
  {
    TxtSuffixIsNonEmpty(input);
    assert MakeOutputPath(st, input, input, false) == input;
    assert Preflight(st, input, input, overwrite) == Ok(input);
    var st1 := MakeDirsSpec(st, Parent(input)).value;
    assert input !in Prefixes(Parent(input));
    assert input !in st1.dirs;
  }
}

=== FILE: convertor.dfy ===
/**
 * The live converter (convertor.py): strict detection that fails when the
 * classifier finds nothing, "utf-8-sig" substituted for every name that
 * contains "utf-8" once lower-cased with '_' read as '-' (so a leading BOM is
 * dropped under those names, and kept under others such as "utf8"), strict decoding without newline translation, and an
 * async batch driver, modelled here as one conversion after another.
 */
module Convertor {
  import opened Wrappers
  import opened Paths
  import opened Models
  import opened Files
  import opened Streams
  import opened Pipeline
  import opened Codecs
  import Utf8

  /**
   * `_detect_encoding`: the classifier's best match, with its own confidence
   * (0.0 when it carries none); no match, or a match without a name, raises.
   */
  function DetectEncoding(classify: seq<Byte> -> Option<Match>, sample: seq<Byte>): (r: Result<(string, real), Error>)
    ensures r.Err? <==> classify(sample).None? || classify(sample).value.encoding == ""
    ensures r.Err? ==> r.error == ValueError(UNDETECTABLE)
    ensures r.Ok? ==> r.value == (classify(sample).value.encoding, classify(sample).value.confidence.GetOr(0.0))
  {
    match classify(sample)
    case None => Err(ValueError(UNDETECTABLE))
    case Some(m) =>
      if m.encoding == "" then Err(ValueError(UNDETECTABLE))
      else Ok((m.encoding, m.confidence.GetOr(0.0)))
  }

  /** `name.lower().replace("_", "-")`. */
  function NormalizeName(name: string): (r: string)
    ensures |r| == |name|
    ensures forall i :: 0 <= i < |name| ==> r[i] == (if LowerChar(name[i]) == '_' then '-' else LowerChar(name[i]))
  {
    seq(|name|, i requires 0 <= i < |name| =>
      var c := LowerChar(name[i]);
      if c == '_' then '-' else c)
  }

  /**
   * The encoding the reader is opened with: "utf-8-sig" for a name that
   * contains "utf-8" once lower-cased with '_' read as '-'; any other name
   * (such as "utf8") as it is.
   */
  function StreamEncoding(name: string): (r: string)
    ensures r == "utf-8-sig" || r == name
  {
    if Contains(NormalizeName(name), "utf-8") then "utf-8-sig" else name
  }

  /** The reader gets "utf-8-sig" exactly when the normalised name contains "utf-8". */
  lemma StreamEncodingIsSigExactly(name: string)
    ensures StreamEncoding(name) == "utf-8-sig" <==> Contains(NormalizeName(name), "utf-8")
  {
    if name == "utf-8-sig" {
      assert NormalizeName(name) == "utf-8-sig";
      assert "utf-8" <= "utf-8-sig";
    }
  }

  /**
   * The substitution on the names Python spells UTF-8 with: "utf_8" and
   * "UTF-8-SIG" become "utf-8-sig", while the alias "utf8" has no "utf-8" in
   * it and is passed on unchanged, so its BOM would be kept.
   */
  lemma StreamEncodingOnSpellings()
    ensures StreamEncoding("utf_8") == "utf-8-sig"
    ensures StreamEncoding("UTF-8-SIG") == "utf-8-sig"
    ensures StreamEncoding("utf8") == "utf8"
    ensures StreamEncoding("cp1251") == "cp1251"
  {
    assert NormalizeName("utf_8") == "utf-8";
    assert "utf-8" <= NormalizeName("utf_8");
    assert NormalizeName("UTF-8-SIG") == "utf-8-sig";
    assert "utf-8" <= NormalizeName("UTF-8-SIG");
    assert NormalizeName("utf8") == "utf8";
    ContainsNeedsRoom("utf8", "utf-8");
    assert NormalizeName("cp1251") == "cp1251";
    assert "cp1251"[1..] == "p1251" && "p1251"[1..] == "1251";
    ContainsNeedsRoom("1251", "utf-8");
    assert "utf-8"[0] != "cp1251"[0] && "utf-8"[0] != "p1251"[0];
  }

  /** A name that contains "utf-8" once lower-cased with '_' read as '-' is read through the BOM-dropping codec. */
  lemma Utf8NamesReadAsSig(name: string)
    requires Contains(NormalizeName(name), "utf-8")
    ensures CodecKey(StreamEncoding(name)) == UTF8_SIG_KEY
  {
    FallbackNamesResolve();
  }

  /**
   * `TextIOWrapper(raw_in, encoding=enc, newline="")` with strict errors: the
   * text its incremental decoder produces, in chunks, with no newline
   * translation; on an invalid byte, the chunks read before it, then an
   * exception.
   */
  function OpenStrict(codecs: Codecs, enc: string, data: seq<Byte>): (s: Stream)
    ensures WellChunked(s.chunks)
    ensures s.fails <==> ReaderDecode(codecs, enc, data).None?
    ensures !s.fails ==> Concat(s.chunks) == ReaderDecode(codecs, enc, data).value
  {
    match ReaderDecode(codecs, enc, data)
    case Some(text) => Stream(Chunks(text), false)
    case None => Stream(Chunks(codecs.beforeError(enc, data)), true)
  }

  /**
   * `_stream_copy` as a function of the filesystem. The input is opened, then
   * the output is opened for writing, which truncates it; only then does the
   * reader read, so copying a file onto itself reads nothing.
   */
  function CopySpec(st: FsState, inFile: Path, outFile: Path, enc: string, codecs: Codecs): (o: CopyOutcome)
    requires inFile in st.files
    ensures o.after.dirs == st.dirs
    ensures outFile in st.dirs ==> o == CopyOutcome(Err(OSError(outFile)), st)
    ensures outFile !in st.dirs ==> o.after.files.Keys == st.files.Keys + {outFile}
    ensures forall p :: p in st.files && p != outFile ==> p in o.after.files && o.after.files[p] == st.files[p]
    ensures outFile !in st.dirs ==>
      var data := if inFile == outFile then [] else st.files[inFile];
      && (o.result.Ok? <==> ReaderDecode(codecs, enc, data).Some?)
      && (o.result.Ok? ==> o.result.value == |data|)
      && (o.result.Ok? ==> o.after.files[outFile] == Utf8.Encode(ReaderDecode(codecs, enc, data).value))
      && (o.result.Err? ==> o.result.error == ValueError(UNDECODABLE))
  {
    if outFile in st.dirs then CopyOutcome(Err(OSError(outFile)), st)
    else
      var truncated := st.(files := st.files[outFile := []]);
      var data := truncated.files[inFile];
      var s := OpenStrict(codecs, enc, data);
      CopyOutcome(
        if s.fails then Err(ValueError(UNDECODABLE)) else Ok(|data|),
        truncated.(files := truncated.files[outFile := Utf8.Encode(Concat(s.chunks))]))
  }

  /** `_stream_copy`: returns `raw_in.tell()` after the reader reached the end. */
  method StreamCopy(fs: FileSystem, inFile: Path, outFile: Path, srcEncoding: string, codecs: Codecs)
    returns (r: Result<nat, Error>)
    requires fs.Valid() && inFile in fs.files && outFile != []
    modifies fs
    ensures fs.Valid()
    ensures CopyOutcome(r, fs.State()) == CopySpec(old(fs.State()), inFile, outFile, srcEncoding, codecs)
  {
    var truncated := fs.OpenForWriting(outFile);
    if truncated.Err? {
      return Err(truncated.error);
    }
    var data := fs.files[inFile];
    assert fs.files[outFile] == [];
    var reader := new ChunkReader(OpenStrict(codecs, srcEncoding, data), data);
    var copied := CopyChunks(fs, reader, outFile);
    if copied.Err? {
      return Err(copied.error);
    }
    assert [] + Utf8.Encode(Concat(reader.chunks)) == Utf8.Encode(Concat(reader.chunks));
    var readBytes := reader.Tell();
    r := Ok(readBytes);
  }

  /**
   * The part of `convert` after the output's parent exists: detection on the
   * input's head, the stream copy with the substituted encoding, and the
   * report, whose output size is the size of the file just written.
   */
  function DetectAndCopy(st: FsState, input: Path, out: Path, env: Environment): (o: Outcome)
    requires Consistent(st) && input in st.files && out != []
    ensures Consistent(o.after)
    ensures forall p :: p in st.files && p != out ==> p in o.after.files && o.after.files[p] == st.files[p]
    ensures o.result.Err? && o.result.error != ValueError(UNDECODABLE) ==> o.after == st
    ensures o.result.Err? <==>
      || DetectEncoding(env.classify, Sample(st.files[input])).Err?
      || out in st.dirs
      || ReaderDecode(env.codecs, StreamEncoding(DetectEncoding(env.classify, Sample(st.files[input])).value.0),
                      if input == out then [] else st.files[input]).None?
    ensures o.result.Err? ==> Raised(o.result.error)
    ensures o.result.Ok? ==>
      var rep := o.result.value;
      var m := env.classify(Sample(st.files[input]));
      && m.Some? && out in o.after.files
      && rep == ConversionReport(input, out, m.value.encoding, m.value.confidence.GetOr(0.0),
                                 if input == out then 0 else |st.files[input]|, |o.after.files[out]|)
      && o.after.files[out] == Utf8.Encode(ReaderDecode(env.codecs, StreamEncoding(m.value.encoding),
                                                        if input == out then [] else st.files[input]).value)
  {
    match DetectEncoding(env.classify, Sample(st.files[input]))
    case Err(e) => Outcome(Err(e), st)
    case Ok(detected) =>
      var copy := CopySpec(st, input, out, StreamEncoding(detected.0), env.codecs);
      match copy.result
      case Err(e) => Outcome(Err(e), copy.after)
      case Ok(bytesIn) =>
        Outcome(Ok(ConversionReport(input, out, detected.0, detected.1, bytesIn, |copy.after.files[out]|)), copy.after)
  }

  /**
   * `Converter.convert` as a function of the filesystem: the checks of
   * `Preflight`, mkdir of the output's parent, then `DetectAndCopy`. Only a
   * decoding error part-way through leaves a changed file behind; every other
   * failure leaves the files as they were.
   */
  function ConvertSpec(st: FsState, input: Path, spec: Path, overwrite: bool, env: Environment): (o: Outcome)
    requires Consistent(st)
    ensures Consistent(o.after)
    ensures Preflight(st, input, spec, overwrite).Err? ==> o == Outcome(Err(Preflight(st, input, spec, overwrite).error), st)
    ensures o.result.Ok? ==>
      && Preflight(st, input, spec, overwrite) == Ok(o.result.value.outputPath)
      && o.result.value.inputPath == input
      && o.result.value.outputPath in o.after.files
      && o.result.value.bytesOut == |o.after.files[o.result.value.outputPath]|
    ensures o.result.Err? && o.result.error != ValueError(UNDECODABLE) ==> o.after.files == st.files
    ensures o.result.Err? ==> Raised(o.result.error)
    ensures forall p :: p in st.files && Preflight(st, input, spec, overwrite) != Ok(p) ==>
      p in o.after.files && o.after.files[p] == st.files[p]
  {
    match Preflight(st, input, spec, overwrite)
    case Err(e) => Outcome(Err(e), st)
    case Ok(out) =>
      match MakeDirsSpec(st, Parent(out))
      case Err(e) => Outcome(Err(e), st)
      case Ok(st1) => DetectAndCopy(st1, input, out, env)
  }

  class Converter {
    const inputPath: Path
    const outputPath: Path
    const overwrite: bool

    constructor (inputPath: Path, outputPath: Path, overwrite: bool)
      ensures this.inputPath == inputPath && this.outputPath == outputPath && this.overwrite == overwrite
    {
      this.inputPath, this.outputPath, this.overwrite := inputPath, outputPath, overwrite;
    }

    /** `convert`: the report, or the first exception raised. */
    method Convert(fs: FileSystem, env: Environment) returns (r: Result<ConversionReport, Error>)
      requires fs.Valid()
      modifies fs
      ensures fs.Valid()
      ensures Outcome(r, fs.State()) == ConvertSpec(old(fs.State()), inputPath, outputPath, overwrite, env)
    {
      var invalid := EnsureInputTxt(fs.State(), inputPath);
      if invalid.Some? {
        return Err(invalid.value);
      }
      var outPath := MakeOutputPath(fs.State(), inputPath, outputPath, false);
      if Exists(fs.State(), outPath) && !overwrite {
        return Err(FileExists(outPath));
      }
      TxtSuffixIsNonEmpty(inputPath);
      var made := fs.MakeDirs(Parent(outPath));
      if made.Err? {
        return Err(made.error);
      }
      var detected := DetectEncoding(env.classify, Sample(fs.files[inputPath]));
      if detected.Err? {
        return Err(detected.error);
      }
      var (sourceEnc, encConf) := detected.value;
      var streamEnc := StreamEncoding(sourceEnc);
      var bytesIn := StreamCopy(fs, inputPath, outPath, streamEnc, env.codecs);
      if bytesIn.Err? {
        return Err(bytesIn.error);
      }
      r := Ok(ConversionReport(inputPath, outPath, sourceEnc, encConf, bytesIn.value, |fs.files[outPath]|));
    }
  }

  /** `Semaphore(max(1, workers))`: at least one conversion may run, whatever `workers` is. */
  function Permits(workers: int): (n: nat)
    ensures n >= 1
    ensures workers >= 1 ==> n == workers
    ensures workers < 1 ==> n == 1
  {
    if workers < 1 then 1 else workers
  }

  /**
   * `run_one` as a function of the filesystem: convert `p` to `out_dir / p.name`
   * and catch whatever is raised into the item.
   */
  function ConvertOne(st: FsState, p: Path, outDir: Path, overwrite: bool, env: Environment): (r: (BatchItemResult, FsState))
    requires Consistent(st)
    ensures Consistent(r.1)
    ensures r.0.path == p && OneOutcome(r.0)
    ensures r.0.ok ==> r.0.report.Some? && r.0.report.value.inputPath == p
  {
    var o := ConvertSpec(st, p, MakeOutputPath(st, p, outDir, true), overwrite, env);
    (ItemOf(p, o.result), o.after)
  }

  /** `run_one`: one file of the batch. */
  method RunOne(fs: FileSystem, p: Path, outDir: Path, overwrite: bool, env: Environment) returns (item: BatchItemResult)
    requires fs.Valid()
    modifies fs
    ensures fs.Valid()
    ensures (item, fs.State()) == ConvertOne(old(fs.State()), p, outDir, overwrite, env)
  {
    var converter := new Converter(p, MakeOutputPath(fs.State(), p, outDir, true), overwrite);
    var r := converter.Convert(fs, env);
    item := ItemOf(p, r);
  }

  /** The conversions of a batch, one after another, in the order of `files`. */
  function BatchSpec(st: FsState, files: seq<Path>, outDir: Path, overwrite: bool, env: Environment): (r: (seq<BatchItemResult>, FsState))
    requires Consistent(st)
    ensures Consistent(r.1) && |r.0| == |files|
    decreases |files|
  {
    if files == [] then ([], st)
    else
      var prev := BatchSpec(st, files[..|files| - 1], outDir, overwrite, env);
      var one := ConvertOne(prev.1, files[|files| - 1], outDir, overwrite, env);
      (prev.0 + [one.0], one.1)
  }

  /** One item per file, in order: item `i` is the outcome of `files[i]`. */
  lemma {:induction false} BatchItemsMatchFiles(st: FsState, files: seq<Path>, outDir: Path, overwrite: bool, env: Environment)
    requires Consistent(st)
    ensures ItemsMatch(BatchSpec(st, files, outDir, overwrite, env).0, files)
    decreases |files|
  {
    if files == [] {
      assert PathsOf([]) == [];
    } else {
      var init := files[..|files| - 1];
      BatchItemsMatchFiles(st, init, outDir, overwrite, env);
      var prev := BatchSpec(st, init, outDir, overwrite, env);
      var one := ConvertOne(prev.1, files[|files| - 1], outDir, overwrite, env);
      ItemsMatchAppend(prev.0, init, one.0, files[|files| - 1]);
      SplitLast(files);
    }
  }

  /** One more file of a batch: its item is appended and its conversion applied to the state so far. */
  lemma BatchSpecStep(st: FsState, files: seq<Path>, i: nat, outDir: Path, overwrite: bool, env: Environment)
    requires Consistent(st) && i < |files|
    ensures var prev := BatchSpec(st, files[..i], outDir, overwrite, env);
      var one := ConvertOne(prev.1, files[i], outDir, overwrite, env);
      BatchSpec(st, files[..i + 1], outDir, overwrite, env) == (prev.0 + [one.0], one.1)
  {
    PrefixOfPrefix(files, i);
  }

  /** The batch's conversions, run in the order of `files`. */
  method RunBatch(fs: FileSystem, files: seq<Path>, outDir: Path, overwrite: bool, env: Environment)
    returns (results: seq<BatchItemResult>)
    requires fs.Valid()
    modifies fs
    ensures fs.Valid()
    ensures (results, fs.State()) == BatchSpec(old(fs.State()), files, outDir, overwrite, env)
  {
    ghost var st0 := fs.State();
    results := [];
    for i := 0 to |files|
      invariant fs.Valid()
      invariant (results, fs.State()) == BatchSpec(st0, files[..i], outDir, overwrite, env)
    {
      var item := RunOne(fs, files[i], outDir, overwrite, env);
      BatchSpecStep(st0, files, i, outDir, overwrite, env);
      results := results + [item];
    }
    assert files[..|files|] == files;
  }

  /**
   * `batch_convert`: collect the inputs, refuse an empty batch, create the
   * output directory, then convert every file, each failure caught into its
   * item. The items are those of the collected files, each exactly once.
   */
  method BatchConvert(fs: FileSystem, root: Path, outDir: Path, overwrite: bool, workers: int, recursive: bool, env: Environment)
    returns (r: Result<seq<BatchItemResult>, Error>)
    requires fs.Valid()
    modifies fs
    ensures fs.Valid()
    ensures !Exists(old(fs.State()), root) ==> r == Err(FileNotFound(root)) && fs.State() == old(fs.State())
    ensures Exists(old(fs.State()), root) && TxtCandidates(old(fs.State()), root, recursive) == {} ==>
      r == Err(ValueError(NO_TXT_FILES)) && fs.State() == old(fs.State())
    ensures Exists(old(fs.State()), root) && TxtCandidates(old(fs.State()), root, recursive) != {} ==>
      (r.Err? <==> MakeDirsSpec(old(fs.State()), outDir).Err?)
    ensures r.Err? ==> fs.State() == old(fs.State())
    ensures r.Ok? ==>
      && multiset(PathsOf(r.value)) == multiset(TxtCandidates(old(fs.State()), root, recursive))
      && (r.value, fs.State()) == BatchSpec(MakeDirsSpec(old(fs.State()), outDir).value, PathsOf(r.value), outDir, overwrite, env)
  {
    var collected := CollectTxtFiles(fs, root, recursive);
    if collected.Err? {
      return Err(collected.error);
    }
    var files := collected.value;
    DistinctListIsPermutation(files, TxtCandidates(fs.State(), root, recursive));
    if files == [] {
      return Err(ValueError(NO_TXT_FILES));
    }
    var made := fs.MakeDirs(outDir);
    if made.Err? {
      return Err(made.error);
    }
    // The semaphore's size bounds only how many conversions overlap; one
    // conversion at a time is a schedule every size admits, so it is not consulted.
    ghost var st1 := fs.State();
    var results := RunBatch(fs, files, outDir, overwrite, env);
    BatchItemsMatchFiles(st1, files, outDir, overwrite, env);
    r := Ok(results);
  }
}

=== FILE: convertor_lemmas.dfy ===
/**
 * What whole conversions of the live converter do to UTF-8 input (checked,
 * BOM dropped, otherwise copied byte for byte) and to a file converted onto
 * itself.
 */
module ConvertorLemmas {
  import opened Wrappers
  import opened Paths
  import opened Models
  import opened Files
  import opened Pipeline
  import opened Codecs
  import opened Convertor
  import Utf8

  /** What the "utf-8-sig" reader writes out for well-formed input or a lone partial BOM. */
  function SigCopy(data: seq<Byte>): seq<Byte> {
    if Utf8.PartialBom(data) then [] else Utf8.StripBom(data)
  }

  /**
   * `DetectAndCopy` on a file the classifier calls UTF-8 writes the input
   * without its BOM. A file that is only a partial BOM (EF, or EF BB) is
   * accepted too, and read as empty.
   */
  lemma DetectAndCopyUtf8(st: FsState, input: Path, out: Path, env: Environment)
    requires Consistent(st) && input in st.files && out != [] && out != input && out !in st.dirs
    requires env.classify(Sample(st.files[input])).Some?
    requires Contains(NormalizeName(env.classify(Sample(st.files[input])).value.encoding), "utf-8")
    ensures var o := DetectAndCopy(st, input, out, env);
      var data := st.files[input];
      && (o.result.Ok? <==> Utf8.WellFormed(data) || Utf8.PartialBom(data))
      && (o.result.Ok? ==> o.result.value.outputPath == out && o.after.files[out] == SigCopy(data))
      && (o.result.Ok? ==> o.result.value.bytesIn == |data| && o.result.value.bytesOut == |SigCopy(data)|)
      && (o.result.Err? ==> o.result.error == ValueError(UNDECODABLE))
  {
    var data := st.files[input];
    var enc := env.classify(Sample(data)).value.encoding;
    Utf8NamesReadAsSig(enc);
    SigReader(env.codecs, StreamEncoding(enc), data);
  }

  /** The "utf-8-sig" reader accepts well-formed input and partial BOMs, and re-encodes to `SigCopy`. */
  lemma SigReader(codecs: Codecs, enc: string, data: seq<Byte>)
    requires CodecKey(enc) == UTF8_SIG_KEY
    ensures ReaderDecode(codecs, enc, data).Some? <==> Utf8.WellFormed(data) || Utf8.PartialBom(data)
    ensures ReaderDecode(codecs, enc, data).Some? ==> Utf8.Encode(ReaderDecode(codecs, enc, data).value) == SigCopy(data)
  {
    Utf8.DecodeSigAccepts(data);
    if Utf8.PartialBom(data) {
    } else if data == [] {
      Utf8.DecodeIffWellFormed(data);
    } else if Utf8.DecodeSig(data).Some? {
      Utf8.DecodeSigRoundTrip(data);
    }
  }

  /**
   * Whatever name is detected, when the reader's codec decodes the input to
   * `text`, the output is `text` in UTF-8 and `bytesIn` is the input size.
   */
  lemma DetectAndCopyDecodable(st: FsState, input: Path, out: Path, env: Environment, text: string)
    requires Consistent(st) && input in st.files && out != [] && out != input && out !in st.dirs
    requires DetectEncoding(env.classify, Sample(st.files[input])).Ok?
    requires ReaderDecode(env.codecs, StreamEncoding(DetectEncoding(env.classify, Sample(st.files[input])).value.0),
                          st.files[input]) == Some(text)
    ensures var o := DetectAndCopy(st, input, out, env);
      && o.result.Ok? && o.after.files[out] == Utf8.Encode(text)
      && o.result.value.bytesIn == |st.files[input]|
  {
  }

  /** `DetectAndCopyDecodable` for a whole conversion, e.g. a cp1251 file the classifier names "cp1251". */
  lemma ConvertDecodable(st: FsState, input: Path, spec: Path, overwrite: bool, env: Environment, text: string)
    requires Consistent(st)
    requires Preflight(st, input, spec, overwrite).Ok?
    requires var out := Preflight(st, input, spec, overwrite).value;
      out != input && out !in st.dirs && MakeDirsSpec(st, Parent(out)).Ok?
    requires DetectEncoding(env.classify, Sample(st.files[input])).Ok?
    requires ReaderDecode(env.codecs, StreamEncoding(DetectEncoding(env.classify, Sample(st.files[input])).value.0),
                          st.files[input]) == Some(text)
    ensures var o := ConvertSpec(st, input, spec, overwrite, env);
      && o.result.Ok? && o.after.files[o.result.value.outputPath] == Utf8.Encode(text)
      && o.result.value.bytesIn == |st.files[input]|
  {
    var out := Preflight(st, input, spec, overwrite).value;
    var st1 := MakeDirsSpec(st, Parent(out)).value;
    assert out !in Prefixes(Parent(out));
    assert ConvertSpec(st, input, spec, overwrite, env) == DetectAndCopy(st1, input, out, env);
    DetectAndCopyDecodable(st1, input, out, env, text);
  }

  /**
   * A file whose detected name contains "utf-8" once normalised converts
   * exactly when it is well-formed UTF-8 or a lone partial BOM, and the output
   * is the input with a leading BOM removed (empty for a partial BOM);
   * `bytesIn` is the whole input.
   */
  lemma ConvertUtf8Input(st: FsState, input: Path, spec: Path, overwrite: bool, env: Environment)
    requires Consistent(st)
    requires Preflight(st, input, spec, overwrite).Ok?
    requires var out := Preflight(st, input, spec, overwrite).value;
      out != input && out !in st.dirs && MakeDirsSpec(st, Parent(out)).Ok?
    requires env.classify(Sample(st.files[input])).Some?
    requires Contains(NormalizeName(env.classify(Sample(st.files[input])).value.encoding), "utf-8")
    ensures var o := ConvertSpec(st, input, spec, overwrite, env);
      var data := st.files[input];
      && (o.result.Ok? <==> Utf8.WellFormed(data) || Utf8.PartialBom(data))
      && (o.result.Ok? ==> o.after.files[o.result.value.outputPath] == SigCopy(data))
      && (o.result.Ok? ==> o.result.value.bytesIn == |data| && o.result.value.bytesOut == |SigCopy(data)|)
      && (o.result.Err? ==> o.result.error == ValueError(UNDECODABLE))
  {
    var out := Preflight(st, input, spec, overwrite).value;
    var st1 := MakeDirsSpec(st, Parent(out)).value;
    assert out !in Prefixes(Parent(out));
    assert ConvertSpec(st, input, spec, overwrite, env) == DetectAndCopy(st1, input, out, env);
    DetectAndCopyUtf8(st1, input, out, env);
  }

  /**
   * The spelling "utf8" does not contain "utf-8", so it is not substituted: a
   * well-formed file the classifier names "utf8" is copied byte for byte, a
   * leading BOM included.
   */
  lemma DetectAndCopyUnderUtf8Spelling(st: FsState, input: Path, out: Path, env: Environment)
    requires Consistent(st) && input in st.files && out != [] && out != input && out !in st.dirs
    requires env.classify(Sample(st.files[input])) == Some(Match("utf8", None))
    requires Utf8.WellFormed(st.files[input])
    ensures var o := DetectAndCopy(st, input, out, env);
      o.result.Ok? && o.after.files[out] == st.files[input]
  {
    Utf8SpellingReadsPlain(env.codecs, st.files[input]);
    assert DetectEncoding(env.classify, Sample(st.files[input])) == Ok(("utf8", 0.0));
  }

  /** Under "utf8" the stream codec is plain UTF-8, which re-encodes well-formed bytes to themselves. */
  lemma Utf8SpellingReadsPlain(codecs: Codecs, data: seq<Byte>)
    requires Utf8.WellFormed(data)
    ensures ReaderDecode(codecs, StreamEncoding("utf8"), data).Some?
    ensures Utf8.Encode(ReaderDecode(codecs, StreamEncoding("utf8"), data).value) == data
  {
    StreamEncodingOnSpellings();
    assert CodecKey("utf8") == "utf8";
    Utf8.DecodeIffWellFormed(data);
    Utf8.EncodeDecode(data);
  }

  /** `DetectAndCopyUnderUtf8Spelling` for a whole conversion: the BOM survives. */
  lemma ConvertKeepsBomUnderUtf8Spelling(st: FsState, input: Path, spec: Path, overwrite: bool, env: Environment)
    requires Consistent(st)
    requires Preflight(st, input, spec, overwrite).Ok?
    requires var out := Preflight(st, input, spec, overwrite).value;
      out != input && out !in st.dirs && MakeDirsSpec(st, Parent(out)).Ok?
    requires env.classify(Sample(st.files[input])) == Some(Match("utf8", None))
    requires Utf8.WellFormed(st.files[input]) && Utf8.StartsWithBom(st.files[input])
    ensures var o := ConvertSpec(st, input, spec, overwrite, env);
      o.result.Ok? && Utf8.StartsWithBom(o.after.files[o.result.value.outputPath])
  {
    var out := Preflight(st, input, spec, overwrite).value;
    var st1 := MakeDirsSpec(st, Parent(out)).value;
    assert out !in Prefixes(Parent(out));
    assert ConvertSpec(st, input, spec, overwrite, env) == DetectAndCopy(st1, input, out, env);
    DetectAndCopyUnderUtf8Spelling(st1, input, out, env);
  }

  /** Converting a BOM-prefixed UTF-8 file yields the same text without the BOM. */
  lemma ConvertDropsBom(st: FsState, input: Path, spec: Path, overwrite: bool, env: Environment, text: string)
    requires Consistent(st)
    requires Preflight(st, input, spec, overwrite).Ok?
    requires var out := Preflight(st, input, spec, overwrite).value;
      out != input && out !in st.dirs && MakeDirsSpec(st, Parent(out)).Ok?
    requires st.files[input] == Utf8.BOM + Utf8.Encode(text)
    requires env.classify(Sample(st.files[input])).Some?
    requires Contains(NormalizeName(env.classify(Sample(st.files[input])).value.encoding), "utf-8")
    ensures var o := ConvertSpec(st, input, spec, overwrite, env);
      o.result.Ok? && o.after.files[o.result.value.outputPath] == Utf8.Encode(text)
  {
    ConvertUtf8Input(st, input, spec, overwrite, env);
    Utf8.DecodeSigDropsBom(text);
    Utf8.DecodeSigAccepts(st.files[input]);
    assert Utf8.StartsWithBom(st.files[input]);
  }

  /**
   * Idempotence on UTF-8 output: a file that is already BOM-less UTF-8 (as
   * every output of this converter is) converts to an identical copy.
   */
  lemma ConvertUtf8IsIdentity(st: FsState, input: Path, spec: Path, overwrite: bool, env: Environment, text: string)
    requires Consistent(st)
    requires Preflight(st, input, spec, overwrite).Ok?
    requires var out := Preflight(st, input, spec, overwrite).value;
      out != input && out !in st.dirs && MakeDirsSpec(st, Parent(out)).Ok?
    requires st.files[input] == Utf8.Encode(text) && (text == [] || text[0] != '\U{FEFF}')
    requires env.classify(Sample(st.files[input])).Some?
    requires Contains(NormalizeName(env.classify(Sample(st.files[input])).value.encoding), "utf-8")
    ensures var o := ConvertSpec(st, input, spec, overwrite, env);
      o.result.Ok? && o.after.files[o.result.value.outputPath] == st.files[input]
  {
    ConvertUtf8Input(st, input, spec, overwrite, env);
    Utf8.EncodeWellFormed(text);
    Utf8.PartialBomRejected(st.files[input]);
    Utf8.EncodedStartsWithBom(text);
  }

  /**
   * Converting a file onto itself with `overwrite`: opening the output for
   * writing truncates the input before anything is read, so the conversion
   * succeeds and leaves an empty file, reporting 0 bytes in and out.
   */
  lemma ConvertInPlaceEmptiesInput(st: FsState, input: Path, overwrite: bool, env: Environment)
    requires Consistent(st) && input in st.files && HasTxtSuffix(input) && overwrite
    requires MakeDirsSpec(st, Parent(input)).Ok?
    requires env.classify(Sample(st.files[input])).Some?
    requires env.classify(Sample(st.files[input])).value.encoding != ""
    ensures var o := ConvertSpec(st, input, input, overwrite, env);
      var m := env.classify(Sample(st.files[input])).value;
      && o.result == Ok(ConversionReport(input, input, m.encoding, m.confidence.GetOr(0.0), 0, 0))
      && o.after.files == st.files[input := []]
  {
    TxtSuffixIsNonEmpty(input);
    assert MakeOutputPath(st, input, input, false) == input;
    assert Preflight(st, input, input, overwrite) == Ok(input);
    var st1 := MakeDirsSpec(st, Parent(input)).value;
    assert input !in Prefixes(Parent(input));
    assert input !in st1.dirs;
  }
}

=== FILE: files.dfy ===
/**
 * The filesystem the converters touch, as an in-memory map from paths to
 * byte contents plus a set of directories. `FsState` is its value; the class
 * `FileSystem` is the mutable object whose methods are pathlib's `mkdir` and
 * the opening and writing of an output file.
 */
module Files {
  import opened Wrappers
  import opened Paths
  import opened Models
  import Utf8

  type Byte = Utf8.Byte

  datatype FsState = FsState(files: map<Path, seq<Byte>>, dirs: set<Path>)

  /** No path is both a file and a directory, and "." is always a directory. */
  ghost predicate Consistent(st: FsState) {
    st.files.Keys !! st.dirs && [] in st.dirs
  }

  /** `Path.exists()`. */
  predicate Exists(st: FsState, p: Path) {
    p in st.files || p in st.dirs
  }

  /**
   * `p.mkdir(parents=True, exist_ok=True)`: fails without creating anything when
   * `p` or one of its ancestors is a file; otherwise every prefix of `p` is a
   * directory afterwards.
   */
  function MakeDirsSpec(st: FsState, p: Path): (r: Result<FsState, Error>)
    ensures r.Err? <==> exists q :: q <= p && q in st.files
    ensures r.Err? ==> r.error == OSError(p)
    ensures r.Ok? ==> r.value.files == st.files && r.value.dirs == st.dirs + Prefixes(p)
    ensures r.Ok? && Consistent(st) ==> Consistent(r.value) && p in r.value.dirs
  {
    assert forall q :: q <= p ==> q == p[..|q|];
    if exists k | 0 <= k <= |p| :: p[..k] in st.files then Err(OSError(p))
    else Ok(st.(dirs := st.dirs + Prefixes(p)))
  }

  class FileSystem {
    var files: map<Path, seq<Byte>>
    var dirs: set<Path>

    function State(): FsState
      reads this
    {
      FsState(files, dirs)
    }

    ghost predicate Valid()
      reads this
    {
      Consistent(State())
    }

    constructor (st: FsState)
      requires Consistent(st)
      ensures Valid() && State() == st
    {
      files, dirs := st.files, st.dirs;
    }

    /** `mkdir(parents=True, exist_ok=True)`. */
    method MakeDirs(p: Path) returns (r: Result<(), Error>)
      requires Valid()
      modifies this
      ensures Valid()
      ensures match MakeDirsSpec(old(State()), p)
        case Ok(st) => r == Ok(()) && State() == st
        case Err(e) => r == Err(e) && State() == old(State())
    {
      if exists k | 0 <= k <= |p| :: p[..k] in files {
        return Err(OSError(p));
      }
      dirs := dirs + Prefixes(p);
      r := Ok(());
    }

    /** `open(p, "w")`: fails on a directory, otherwise creates or truncates the file. */
    method OpenForWriting(p: Path) returns (r: Result<(), Error>)
      requires Valid() && p != []
      modifies this
      ensures Valid() && dirs == old(dirs)
      ensures p in old(dirs) ==> r == Err(OSError(p)) && files == old(files)
      ensures p !in old(dirs) ==> r == Ok(()) && files == old(files)[p := []]
    {
      if p in dirs {
        return Err(OSError(p));
      }
      files := files[p := []];
      r := Ok(());
    }

    /** One `write` on a file opened for writing: its bytes go at the end. */
    method Append(p: Path, data: seq<Byte>)
      requires Valid() && p in files
      modifies this
      ensures Valid() && dirs == old(dirs)
      ensures files == old(files)[p := old(files)[p] + data]
    {
      files := files[p := files[p] + data];
    }
  }
}

=== FILE: models.dfy ===
/** The records the converters return, and the exceptions they raise. */
module Models {
  import opened Wrappers
  import opened Paths

  /** The exceptions a conversion can raise, by the Python class that carries them. */
  datatype Error =
    | FileNotFound(path: Path)      // FileNotFoundError(path)
    | ValueError(message: string)   // ValueError, and UnicodeDecodeError, a subclass of it
    | FileExists(path: Path)        // FileExistsError("Output exists: <path>")
    | OSError(path: Path)           // any other OSError from mkdir or open

  const ONLY_TXT: string := "Only .txt files are supported"
  const NO_TXT_FILES: string := "No .txt files found for batch"
  const UNDETECTABLE: string := "Failed to detect text encoding (file may be binary)"
  const UNDECODABLE: string := "codec can't decode byte"
  const BAD_WORKERS: string := "max_workers must be greater than 0"

  /** The errors the converters raise: a ValueError only ever carries one of the messages above. */
  predicate Raised(e: Error) {
    e.ValueError? ==> e.message in {ONLY_TXT, NO_TXT_FILES, UNDETECTABLE, UNDECODABLE, BAD_WORKERS}
  }

  /**
   * `str(e)`: the text a failed batch item carries. A ValueError's text is its
   * message as given, so only a raised error is sure to be described by a
   * non-empty text.
   */
  function Describe(e: Error): (s: string)
    ensures e.ValueError? ==> s == e.message
    ensures Raised(e) ==> s != ""
  {
    match e
    case FileNotFound(p) => PathText(p)
    case ValueError(m) => m
    case FileExists(p) => "Output exists: " + PathText(p)
    case OSError(p) => "OSError: " + PathText(p)
  }

  /** The report of one successful conversion (models.py). */
  datatype ConversionReport = ConversionReport(
    inputPath: Path,
    outputPath: Path,
    detectedEncoding: string,
    confidence: real,
    bytesIn: nat,
    bytesOut: nat)

  /** The outcome of one file of a batch (models.py). */
  datatype BatchItemResult = BatchItemResult(
    path: Path,
    ok: bool,
    report: Option<ConversionReport>,
    error: Option<string>)

  /** A batch item either succeeded with a report or failed with an error, never both. */
  predicate OneOutcome(item: BatchItemResult) {
    item.ok == item.report.Some? && item.ok == item.error.None?
  }

  /**
   * The `try`/`except Exception` around one conversion of a batch: any raised
   * error becomes a failed item instead of escaping.
   */
  function ItemOf(p: Path, r: Result<ConversionReport, Error>): (item: BatchItemResult)
    ensures item.path == p && OneOutcome(item)
    ensures item.ok <==> r.Ok?
    ensures r.Ok? ==> item.report == Some(r.value)
    ensures r.Err? ==> item.error == Some(Describe(r.error))
  {
    match r
    case Ok(rep) => BatchItemResult(p, true, Some(rep), None)
    case Err(e) => BatchItemResult(p, false, None, Some(Describe(e)))
  }

  /** The paths of a batch's items, in order. */
  function PathsOf(items: seq<BatchItemResult>): (ps: seq<Path>)
    ensures |ps| == |items|
    ensures forall i :: 0 <= i < |items| ==> ps[i] == items[i].path
  {
    seq(|items|, i requires 0 <= i < |items| => items[i].path)
  }

  /**
   * `items` are the outcomes of `files`, in order: item `i` is about
   * `files[i]` and either succeeded with a report on that file or failed
   * with a message.
   */
  predicate ItemsMatch(items: seq<BatchItemResult>, files: seq<Path>) {
    && PathsOf(items) == files
    && (forall i :: 0 <= i < |items| ==> OneOutcome(items[i]))
    && (forall i :: 0 <= i < |items| && items[i].ok ==> items[i].report.Some? && items[i].report.value.inputPath == files[i])
  }

  /** Appending the outcome of one more file keeps the items matched with their files. */
  lemma ItemsMatchAppend(items: seq<BatchItemResult>, files: seq<Path>, item: BatchItemResult, p: Path)
    requires ItemsMatch(items, files)
    requires item.path == p && OneOutcome(item)
    requires item.ok ==> item.report.Some? && item.report.value.inputPath == p
    ensures ItemsMatch(items + [item], files + [p])
  {
    var all := items + [item];
    assert forall i :: 0 <= i < |items| ==> all[i] == items[i];
    assert PathsOf(all) == files + [p];
  }

  /** A non-empty list is its front followed by its last element. */
  lemma SplitLast<T>(s: seq<T>)
    requires s != []
    ensures s[..|s| - 1] + [s[|s| - 1]] == s
  {
  }

  /** The first `i` elements of the first `i + 1`. */
  lemma PrefixOfPrefix<T>(s: seq<T>, i: nat)
    requires i < |s|
    ensures s[..i + 1][..i] == s[..i] && s[..i + 1][i] == s[i]
  {
  }
}

=== FILE: paths.dfy ===
/**
 * Paths as sequences of name components, and the pieces of pathlib that the
 * converters use: `name`, `parent`, `suffix`, the `/` operator, and the
 * lower-casing applied to suffixes and encoding names.
 */
module Paths {

  /** One name component of a path. pathlib never yields an empty one. */
  type Component = s: string | s != "" witness "_"

  /** A path as the sequence of its components; `[]` is the current directory ".". */
  type Path = seq<Component>

  /** `PurePath.name`: the final component, "" for ".". */
  function Name(p: Path): (r: string)
    ensures p != [] ==> r == p[|p| - 1] && r != ""
    ensures p == [] ==> r == ""
  {
    if p == [] then "" else p[|p| - 1]
  }

  /** `PurePath.parent`: everything but the final component; "." is its own parent. */
  function Parent(p: Path): (r: Path)
    ensures r <= p
    ensures p != [] ==> |r| == |p| - 1
  {
    if p == [] then [] else p[..|p| - 1]
  }

  /** `p / name`: appending "" leaves the path as it is. */
  function Join(p: Path, name: string): (r: Path)
    ensures name != "" ==> Parent(r) == p && Name(r) == name
    ensures name == "" ==> r == p
  {
    if name == "" then p else p + [name]
  }

  /** `str.rfind('.')`: the index of the last dot, or -1 when there is none. */
  function LastDot(s: string): (i: int)
    ensures -1 <= i < |s|
    ensures i >= 0 ==> s[i] == '.'
    ensures forall j :: i < j < |s| ==> s[j] != '.'
  {
    if s == [] then -1
    else if s[|s| - 1] == '.' then |s| - 1
    else LastDot(s[..|s| - 1])
  }

  /**
   * `PurePath.suffix`, with the rule of CPython up to 3.12: the text from the
   * last dot on, provided that dot is neither the first nor the last character
   * of the name; otherwise "". So ".txt" (a hidden file) and "a." have no suffix.
   */
  function Suffix(name: string): (r: string)
    ensures r != "" <==> name != "" && name[|name| - 1] != '.' && exists i :: 0 < i < |name| && name[i] == '.'
    ensures r != "" ==> 2 <= |r| < |name| && r[0] == '.' && r == name[|name| - |r|..]
    ensures r != "" ==> forall j :: 1 <= j < |r| ==> r[j] != '.'
  {
    var i := LastDot(name);
    if 0 < i < |name| - 1 then name[i..] else ""
  }

  /** ASCII lower-casing of one character. */
  function LowerChar(c: char): (r: char)
    ensures 'A' <= c <= 'Z' ==> r as int == c as int + 32
    ensures !('A' <= c <= 'Z') ==> r == c
  {
    if 'A' <= c <= 'Z' then (c as int + 32) as char else c
  }

  /**
   * `str.lower()`. Only ASCII letters are folded; no other character lowers to
   * one of the ASCII characters this model compares against.
   */
  function Lower(s: string): (r: string)
    ensures |r| == |s|
    ensures forall i :: 0 <= i < |s| ==> r[i] == LowerChar(s[i])
  {
    seq(|s|, i requires 0 <= i < |s| => LowerChar(s[i]))
  }

  /** `t in s` for strings: `t` occurs somewhere in `s`. */
  function Contains(s: string, t: string): (b: bool)
    decreases |s|
  {
    t <= s || (s != [] && Contains(s[1..], t))
  }

  /** A string cannot contain a longer one. */
  lemma {:induction false} ContainsNeedsRoom(s: string, t: string)
    requires |t| > |s|
    ensures !Contains(s, t)
    decreases |s|
  {
    if s != [] {
      ContainsNeedsRoom(s[1..], t);
    }
  }

  /** `t` occurs in `s` starting at index `i`. */
  predicate OccursAt(s: string, t: string, i: int) {
    0 <= i <= |s| - |t| && s[i..i + |t|] == t
  }

  /** `Contains` agrees with the positional reading of `t in s`. */
  lemma {:induction false} ContainsAt(s: string, t: string)
    ensures Contains(s, t) <==> exists i :: OccursAt(s, t, i)
    decreases |s|
  {
    if t <= s {
      assert OccursAt(s, t, 0);
    } else if s == [] {
    } else {
      ContainsAt(s[1..], t);
      if Contains(s[1..], t) {
        var i :| OccursAt(s[1..], t, i);
        assert OccursAt(s, t, i + 1);
      }
      if exists i :: OccursAt(s, t, i) {
        var i :| OccursAt(s, t, i);
        if i > 0 {
          assert OccursAt(s[1..], t, i - 1);
        }
      }
    }
  }

  /** The suffix test of `_ensure_input_txt` and `_collect_txt_files`: ".txt" in any case. */
  predicate HasTxtSuffix(p: Path) {
    Lower(Suffix(Name(p))) == ".txt"
  }

  /** Every prefix of `p`, from "." to `p` itself: what `mkdir(parents=True)` makes sure exists. */
  function Prefixes(p: Path): (r: set<Path>)
    ensures p in r && [] in r
    ensures forall q :: q in r <==> q <= p
  {
    assert p[..|p|] == p;
    assert p[..0] == [];
    assert forall q :: q <= p ==> q == p[..|q|];
    set k | 0 <= k <= |p| :: p[..k]
  }

  /** The text of a path as `str(path)` prints it, used in error messages. */
  function PathText(p: Path): (r: string)
    ensures r != ""
  {
    if p == [] then "."
    else if |p| == 1 then p[0]
    else PathText(p[..|p| - 1]) + "/" + p[|p| - 1]
  }
}

=== FILE: pipeline.dfy ===
/**
 * The steps the two `Converter` classes share word for word: the input check,
 * output-path resolution, the overwrite gate, the detection sample, and the
 * discovery of a batch's candidate files.
 */
module Pipeline {
  import opened Wrappers
  import opened Paths
  import opened Models
  import opened Files
  import Utf8

  type Byte = Utf8.Byte

  /** `Converter.DETECT_MAX_BYTES`: the most bytes the detector looks at. */
  const DETECT_MAX_BYTES: nat := 1024 * 1024

  /** The outcome of a conversion: the report or the exception, and the filesystem afterwards. */
  datatype Outcome = Outcome(result: Result<ConversionReport, Error>, after: FsState)

  /** The outcome of a stream copy: bytes consumed or the exception, and the filesystem afterwards. */
  datatype CopyOutcome = CopyOutcome(result: Result<nat, Error>, after: FsState)

  /** `f.read(DETECT_MAX_BYTES)` on a fresh handle: the head of the file. */
  function Sample(data: seq<Byte>): (s: seq<Byte>)
    ensures s <= data && |s| <= DETECT_MAX_BYTES
    ensures |data| <= DETECT_MAX_BYTES ==> s == data
    ensures |data| > DETECT_MAX_BYTES ==> |s| == DETECT_MAX_BYTES
  {
    if |data| <= DETECT_MAX_BYTES then data else data[..DETECT_MAX_BYTES]
  }

  /** `_ensure_input_txt`: a regular file first, then a ".txt" suffix in any case. */
  function EnsureInputTxt(st: FsState, p: Path): (r: Option<Error>)
    ensures r.None? <==> p in st.files && HasTxtSuffix(p)
    ensures p !in st.files ==> r == Some(FileNotFound(p))
    ensures p in st.files && !HasTxtSuffix(p) ==> r == Some(ValueError(ONLY_TXT))
  {
    if p !in st.files then Some(FileNotFound(p))
    else if !HasTxtSuffix(p) then Some(ValueError(ONLY_TXT))
    else None
  }

  /**
   * `_make_output_path`. In batch mode (`expectDir`) the spec is a directory
   * when it has no suffix and is replaced by its parent otherwise; the
   * filesystem is not consulted. In single mode the spec is the output file
   * itself unless it has no suffix or is an existing directory.
   */
  function MakeOutputPath(st: FsState, input: Path, spec: Path, expectDir: bool): (r: Path)
    ensures expectDir && input != [] ==>
      Name(r) == Name(input) && Parent(r) == (if Suffix(Name(spec)) == "" then spec else Parent(spec))
    ensures !expectDir && input != [] ==> (r == spec <==> Suffix(Name(spec)) != "" && spec !in st.dirs)
    ensures !expectDir && (Suffix(Name(spec)) == "" || spec in st.dirs) ==> r == Join(spec, Name(input))
  {
    if expectDir then
      var base := if Suffix(Name(spec)) == "" then spec else Parent(spec);
      Join(base, Name(input))
    else if Suffix(Name(spec)) == "" || spec in st.dirs then Join(spec, Name(input))
    else spec
  }

  /** A suffixed batch output "directory" sends every result into its parent. */
  lemma SuffixedOutputDirUsesParent(st: FsState, input: Path, outDir: Path)
    requires input != [] && Suffix(Name(outDir)) != ""
    ensures MakeOutputPath(st, input, outDir, true) == Parent(outDir) + [Name(input)]
  {
  }

  /** A name with the ".txt" suffix has a non-empty suffix, so single mode keeps it as a file name. */
  lemma TxtSuffixIsNonEmpty(p: Path)
    requires HasTxtSuffix(p)
    ensures Suffix(Name(p)) != "" && p != []
  {
  }

  /**
   * In a batch, each item's target `out_dir / name` is resolved again by
   * `convert` in single mode: it stays as it is unless it is an existing
   * directory, in which case the file goes one level further down.
   */
  lemma BatchTargetResolvedAgain(st: FsState, p: Path, outDir: Path)
    requires HasTxtSuffix(p)
    ensures var target := MakeOutputPath(st, p, outDir, true);
      MakeOutputPath(st, p, target, false) == if target in st.dirs then target + [Name(p)] else target
  {
    TxtSuffixIsNonEmpty(p);
  }

  /**
   * The part of `convert` before any side effect: input check, output
   * resolution, overwrite gate, in that order. On success, the output path.
   */
  function Preflight(st: FsState, input: Path, spec: Path, overwrite: bool): (r: Result<Path, Error>)
    ensures input !in st.files ==> r == Err(FileNotFound(input))
    ensures input in st.files && !HasTxtSuffix(input) ==> r == Err(ValueError(ONLY_TXT))
    ensures input in st.files && HasTxtSuffix(input) ==>
      var out := MakeOutputPath(st, input, spec, false);
      r == if Exists(st, out) && !overwrite then Err(FileExists(out)) else Ok(out)
    ensures r.Ok? ==> r.value != [] && HasTxtSuffix(input)
    ensures r.Ok? && !overwrite ==> r.value != input && !Exists(st, r.value)
  {
    match EnsureInputTxt(st, input)
    case Some(e) => Err(e)
    case None =>
      TxtSuffixIsNonEmpty(input);
      var out := MakeOutputPath(st, input, spec, false);
      if Exists(st, out) && !overwrite then Err(FileExists(out)) else Ok(out)
  }

  /** The glob pattern "*.txt" on a file name, matched case-sensitively as on POSIX. */
  predicate GlobTxt(name: string) {
    |name| >= 4 && name[|name| - 4..] == ".txt"
  }

  /** `p` lies under `root`: anywhere for "**" patterns, as a direct child otherwise. */
  predicate InScope(root: Path, p: Path, recursive: bool) {
    root < p && (recursive || |p| == |root| + 1)
  }

  /**
   * The candidate set of `_collect_txt_files`: the root itself when it is a
   * ".txt" file, otherwise the regular files under it whose names match the glob.
   */
  function TxtCandidates(st: FsState, root: Path, recursive: bool): (c: set<Path>)
    ensures root in st.files ==> c == if HasTxtSuffix(root) then {root} else {}
    ensures root !in st.files ==> forall p :: p in c <==> p in st.files && InScope(root, p, recursive) && GlobTxt(Name(p))
    ensures forall p :: p in c ==> p in st.files
  {
    if root in st.files then (if HasTxtSuffix(root) then {root} else {})
    else set p | p in st.files && InScope(root, p, recursive) && GlobTxt(Name(p))
  }

  /** A globbed name longer than ".txt" passes the input check's suffix test. */
  lemma GlobbedNameHasTxtSuffix(p: Path)
    requires GlobTxt(Name(p)) && |Name(p)| > 4
    ensures HasTxtSuffix(p)
  {
    var name := Name(p);
    assert name[|name| - 4] == '.';
    assert Suffix(name) == name[|name| - 4..];
    assert Lower(".txt") == ".txt";
  }

  /** A hidden file named ".txt" matches the glob but has no suffix, so converting it raises. */
  lemma HiddenTxtIsRejected(st: FsState, dir: Path)
    requires dir + [".txt"] in st.files
    ensures GlobTxt(Name(dir + [".txt"]))
    ensures EnsureInputTxt(st, dir + [".txt"]) == Some(ValueError(ONLY_TXT))
  {
    assert Suffix(".txt") == "";
    assert Lower("") == "";
  }

  /**
   * `_collect_txt_files`: a missing root raises; a file root yields itself
   * only with a ".txt" suffix; a directory root yields each matching file once,
   * in an order the filesystem decides.
   */
  method CollectTxtFiles(fs: FileSystem, root: Path, recursive: bool) returns (r: Result<seq<Path>, Error>)
    ensures !Exists(fs.State(), root) ==> r == Err(FileNotFound(root))
    ensures root in fs.files ==> r == Ok(if HasTxtSuffix(root) then [root] else [])
    ensures Exists(fs.State(), root) ==> r.Ok?
    ensures r.Ok? ==> forall p :: p in r.value <==> p in TxtCandidates(fs.State(), root, recursive)
    ensures r.Ok? ==> forall i, j :: 0 <= i < j < |r.value| ==> r.value[i] != r.value[j]
  {
    if !Exists(fs.State(), root) {
      return Err(FileNotFound(root));
    }
    if root in fs.files {
      return Ok(if HasTxtSuffix(root) then [root] else []);
    }
    var candidates := TxtCandidates(fs.State(), root, recursive);
    var pending := candidates;
    var found: seq<Path> := [];
    while pending != {}
      invariant pending <= candidates
      invariant forall p :: p in found || p in pending <==> p in candidates
      invariant forall p :: p in found ==> p !in pending
      invariant forall i, j :: 0 <= i < j < |found| ==> found[i] != found[j]
      decreases |pending|
    {
      var p :| p in pending;
      found := found + [p];
      pending := pending - {p};
    }
    r := Ok(found);
  }

  /** A list of distinct paths that holds exactly a set's members is that set in some order. */
  lemma {:induction false} DistinctListIsPermutation(s: seq<Path>, c: set<Path>)
    requires forall i, j :: 0 <= i < j < |s| ==> s[i] != s[j]
    requires forall p :: p in s <==> p in c
    ensures multiset(s) == multiset(c) && |s| == |c|
  {
    if s == [] {
      assert c == {};
    } else {
      var last := s[|s| - 1];
      var init := s[..|s| - 1];
      assert s == init + [last];
      forall p | p in init ensures p in c - {last} {
        var i :| 0 <= i < |init| && init[i] == p;
        assert s[i] == p;
      }
      DistinctListIsPermutation(init, c - {last});
      assert c == (c - {last}) + {last};
    }
  }
}

=== FILE: streams.dfy ===
/**
 * The chunked copy that both converters run: a text reader that hands out the
 * decoded input `READ_CHARS` characters at a time, and the `while True` loop
 * that writes each chunk to the output until the reader returns "".
 */
module Streams {
  import opened Wrappers
  import opened Paths
  import opened Models
  import opened Files
  import Utf8

  /** `Converter.READ_CHARS`: characters requested per read. */
  const READ_CHARS: nat := 1024 * 1024

  /** The chunks joined in order. */
  function Concat(parts: seq<string>): (s: string)
  {
    if parts == [] then [] else parts[0] + Concat(parts[1..])
  }

  lemma {:induction false} ConcatSnoc(parts: seq<string>, last: string)
    ensures Concat(parts + [last]) == Concat(parts) + last
  {
    if parts == [] {
      assert [] + [last] == [last];
      assert Concat([last][1..]) == [];
    } else {
      assert (parts + [last])[0] == parts[0];
      assert (parts + [last])[1..] == parts[1..] + [last];
      ConcatSnoc(parts[1..], last);
    }
  }

  /** Every chunk is non-empty and at most `READ_CHARS` long: the memory bound of the copy. */
  predicate WellChunked(parts: seq<string>) {
    forall i :: 0 <= i < |parts| ==> 0 < |parts[i]| <= READ_CHARS
  }

  /**
   * What successive `read(READ_CHARS)` calls on a text reader over `t` return
   * before the final "": full chunks, then the remainder.
   */
  function Chunks(t: string): (parts: seq<string>)
    ensures WellChunked(parts)
    ensures Concat(parts) == t
    decreases |t|
  {
    if t == [] then []
    else if |t| <= READ_CHARS then [t]
    else
      assert t == t[..READ_CHARS] + t[READ_CHARS..];
      [t[..READ_CHARS]] + Chunks(t[READ_CHARS..])
  }

  /** What a reader over one input will hand out: its chunks, then "" or an exception. */
  datatype Stream = Stream(chunks: seq<string>, fails: bool)

  /**
   * A text reader over an opened input (`TextIOWrapper` over the raw file). It
   * hands out its chunks in order; once they are used up, every further read
   * returns "" or, when strict decoding hit an invalid byte, raises. `rawPos`
   * is the raw file's position: it only grows while chunks are handed out, by
   * however much the decoder reads ahead, and a read that returns "" has
   * consumed the raw file to its end.
   */
  class ChunkReader {
    const chunks: seq<string>
    const fails: bool
    const raw: seq<Byte>
    var next: nat
    var rawPos: nat
    var atEof: bool

    ghost predicate Valid()
      reads this
    {
      && next <= |chunks| && WellChunked(chunks) && rawPos <= |raw|
      && (atEof ==> next == |chunks| && !fails && rawPos == |raw|)
    }

    predicate Exhausted()
      reads this
    {
      next == |chunks|
    }

    constructor (s: Stream, raw: seq<Byte>)
      requires WellChunked(s.chunks)
      ensures Valid() && next == 0 && rawPos == 0 && !atEof
      ensures chunks == s.chunks && fails == s.fails && this.raw == raw
    {
      chunks, fails, this.raw := s.chunks, s.fails, raw;
      next, rawPos, atEof := 0, 0, false;
    }

    /** `reader.read(READ_CHARS)`. */
    method Read() returns (r: Result<string, Error>)
      requires Valid()
      modifies this
      ensures Valid() && old(rawPos) <= rawPos
      ensures old(next) < |chunks| ==> r == Ok(chunks[old(next)]) && next == old(next) + 1
      ensures old(next) == |chunks| ==> next == old(next)
      ensures old(next) == |chunks| ==> r == if fails then Err(ValueError(UNDECODABLE)) else Ok("")
      ensures r == Ok("") ==> atEof
      ensures r.Ok? ==> |r.value| <= READ_CHARS
    {
      if next < |chunks| {
        r := Ok(chunks[next]);
        next := next + 1;
        var p :| rawPos <= p <= |raw|;
        rawPos := p;
      } else if fails {
        r := Err(ValueError(UNDECODABLE));
      } else {
        r := Ok("");
        rawPos, atEof := |raw|, true;
      }
    }

    /** `raw_in.tell()` once the reader has returned "": the whole raw file was consumed. */
    method Tell() returns (pos: nat)
      requires Valid() && atEof
      ensures pos == |raw|
    {
      pos := rawPos;
    }
  }

  /** Writing one more chunk extends the output by that chunk's encoding. */
  lemma WriteChunk(before: seq<Utf8.Byte>, done: seq<string>, chunk: string)
    ensures before + Utf8.Encode(Concat(done)) + Utf8.Encode(chunk) == before + Utf8.Encode(Concat(done + [chunk]))
  {
    ConcatSnoc(done, chunk);
    Utf8.EncodeAppend(Concat(done), chunk);
  }

  /**
   * The copy loop: read a chunk, stop at "", otherwise write it. The output
   * receives the UTF-8 encoding of the chunks in read order; a raising read
   * ends the copy with what was written so far left in place.
   */
  method CopyChunks(fs: FileSystem, reader: ChunkReader, outFile: Path) returns (r: Result<(), Error>)
    requires fs.Valid() && reader.Valid() && reader.next == 0 && outFile in fs.files
    modifies fs, reader
    ensures fs.Valid() && fs.dirs == old(fs.dirs)
    ensures fs.files == old(fs.files)[outFile := old(fs.files)[outFile] + Utf8.Encode(Concat(reader.chunks))]
    ensures reader.Exhausted() && reader.Valid() && (r.Ok? ==> reader.atEof)
    ensures r == if reader.fails then Err(ValueError(UNDECODABLE)) else Ok(())
  {
    ghost var base := fs.files;
    ghost var before := fs.files[outFile];
    assert reader.chunks[..reader.next] == [];
    assert before + Utf8.Encode(Concat([])) == before;
    assert fs.files == base[outFile := before + Utf8.Encode(Concat([]))];
    while true
      invariant fs.Valid() && reader.Valid() && fs.dirs == old(fs.dirs)
      invariant fs.files == base[outFile := before + Utf8.Encode(Concat(reader.chunks[..reader.next]))]
      decreases |reader.chunks| - reader.next
    {
      ghost var done := reader.chunks[..reader.next];
      var chunk := reader.Read();
      if chunk.Err? {
        assert reader.chunks[..reader.next] == reader.chunks;
        return Err(chunk.error);
      }
      if chunk.value == "" {
        break;
      }
      assert reader.chunks[..reader.next] == done + [chunk.value];
      WriteChunk(before, done, chunk.value);
      fs.Append(outFile, Utf8.Encode(chunk.value));
    }
    assert reader.chunks[..reader.next] == reader.chunks;
    r := Ok(());
  }
}

=== FILE: utf8.dfy ===
/**
 * UTF-8 as RFC 3629 defines it: the well-formedness grammar of section 4, the
 * encoder of section 3, a strict decoder, and the byte order mark of section 6.
 * The live converter relies on this codec to strip a leading BOM, the prototype
 * probes it in its fallback chain, and both write their output with it.
 */
module Utf8 {
  import opened Wrappers

  type Byte = x: int | 0 <= x < 0x100

  /** UTF8-tail of RFC 3629 section 4: %x80-BF. */
  predicate IsTail(x: Byte) {
    0x80 <= x <= 0xBF
  }

  /**
   * The length of the UTF8-char (RFC 3629 section 4) that `b` starts with,
   * or 0 when `b` does not start with one. Overlong forms, surrogates and
   * code points above U+10FFFF are excluded by the grammar's second-byte ranges.
   */
  function CharLength(b: seq<Byte>): (n: nat)
    ensures n <= 4 && n <= |b|
  {
    if |b| == 0 then 0
    else if b[0] <= 0x7F then 1
    else if 0xC2 <= b[0] <= 0xDF then
      (if |b| >= 2 && IsTail(b[1]) then 2 else 0)
    else if b[0] == 0xE0 then
      (if |b| >= 3 && 0xA0 <= b[1] <= 0xBF && IsTail(b[2]) then 3 else 0)
    else if 0xE1 <= b[0] <= 0xEC || 0xEE <= b[0] <= 0xEF then
      (if |b| >= 3 && IsTail(b[1]) && IsTail(b[2]) then 3 else 0)
    else if b[0] == 0xED then
      (if |b| >= 3 && 0x80 <= b[1] <= 0x9F && IsTail(b[2]) then 3 else 0)
    else if b[0] == 0xF0 then
      (if |b| >= 4 && 0x90 <= b[1] <= 0xBF && IsTail(b[2]) && IsTail(b[3]) then 4 else 0)
    else if 0xF1 <= b[0] <= 0xF3 then
      (if |b| >= 4 && IsTail(b[1]) && IsTail(b[2]) && IsTail(b[3]) then 4 else 0)
    else if b[0] == 0xF4 then
      (if |b| >= 4 && 0x80 <= b[1] <= 0x8F && IsTail(b[2]) && IsTail(b[3]) then 4 else 0)
    else 0
  }

  /** UTF8-octets of RFC 3629 section 4: a sequence of UTF8-chars. */
  predicate WellFormed(b: seq<Byte>)
    decreases |b|
  {
    b == [] || (CharLength(b) > 0 && WellFormed(b[CharLength(b)..]))
  }

  /** A Unicode scalar value: what a Dafny `char` holds. */
  predicate IsScalar(n: int) {
    0 <= n < 0xD800 || 0xE000 <= n < 0x11_0000
  }

  /** The code point of the UTF8-char that `b` starts with. */
  function CodePoint(b: seq<Byte>): (n: int)
    requires CharLength(b) > 0
    ensures IsScalar(n)
    ensures CharLength(b) == 1 <==> n < 0x80
    ensures CharLength(b) == 2 <==> 0x80 <= n < 0x800
    ensures CharLength(b) == 3 <==> 0x800 <= n < 0x1_0000
    ensures CharLength(b) == 4 <==> 0x1_0000 <= n
  {
    var k := CharLength(b);
    var b0: int, b1: int, b2: int, b3: int :=
      b[0], if k > 1 then b[1] else 0, if k > 2 then b[2] else 0, if k > 3 then b[3] else 0;
    if k == 1 then b0
    else if k == 2 then (b0 - 0xC0) * 64 + (b1 - 0x80)
    else if k == 3 then (b0 - 0xE0) * 4096 + (b1 - 0x80) * 64 + (b2 - 0x80)
    else (b0 - 0xF0) * 262144 + (b1 - 0x80) * 4096 + (b2 - 0x80) * 64 + (b3 - 0x80)
  }

  /** Strict decoding: the text `b` encodes, or None at the first ill-formed byte. */
  function Decode(b: seq<Byte>): (r: Option<string>)
    decreases |b|
  {
    if b == [] then Some([])
    else
      var k := CharLength(b);
      if k == 0 then None
      else
        match Decode(b[k..])
        case None => None
        case Some(s) => Some([CodePoint(b) as char] + s)
  }

  /** The UTF-8 encoding of one character (RFC 3629 section 3). */
  function EncodeChar(c: char): (r: seq<Byte>)
    ensures 1 <= |r| <= 4
  {
    var n := c as int;
    var n1 := n / 64;
    var n2 := n1 / 64;
    if n < 0x80 then [n]
    else if n < 0x800 then [0xC0 + n1, 0x80 + n % 64]
    else if n < 0x1_0000 then [0xE0 + n2, 0x80 + n1 % 64, 0x80 + n % 64]
    else [0xF0 + n2 / 64, 0x80 + n2 % 64, 0x80 + n1 % 64, 0x80 + n % 64]
  }

  /** The UTF-8 encoding of a text: what a file opened with encoding="utf-8" receives. */
  function Encode(s: string): (r: seq<Byte>)
    ensures |r| >= |s|
    ensures s == [] <==> r == []
  {
    if s == [] then [] else EncodeChar(s[0]) + Encode(s[1..])
  }

  /** Encoding distributes over concatenation, so writing chunk by chunk writes the whole. */
  lemma {:induction false} EncodeAppend(a: string, b: string)
    ensures Encode(a + b) == Encode(a) + Encode(b)
  {
    if a != [] {
      assert (a + b)[0] == a[0];
      assert (a + b)[1..] == a[1..] + b;
      EncodeAppend(a[1..], b);
    } else {
      assert a + b == b;
    }
  }

  /** An encoded character is read back as one UTF8-char carrying the same code point. */
  lemma EncodeCharFirst(c: char, rest: seq<Byte>)
    ensures CharLength(EncodeChar(c) + rest) == |EncodeChar(c)|
    ensures CodePoint(EncodeChar(c) + rest) == c as int
  {
    var n := c as int;
    var b := EncodeChar(c) + rest;
    assert n == 64 * (n / 64) + n % 64;
    assert n / 64 == 64 * (n / 64 / 64) + n / 64 % 64;
    assert n / 64 / 64 == 64 * (n / 64 / 64 / 64) + n / 64 / 64 % 64;
  }

  /** Decoding inverts encoding (RFC 3629 section 3 and 4 agree). */
  lemma {:induction false} DecodeEncode(s: string)
    ensures Decode(Encode(s)) == Some(s)
  {
    if s != [] {
      var e := EncodeChar(s[0]);
      var tail := Encode(s[1..]);
      EncodeCharFirst(s[0], tail);
      assert (e + tail)[|e|..] == tail;
      DecodeEncode(s[1..]);
      assert [CodePoint(e + tail) as char] + s[1..] == s;
    }
  }

  /** The strict decoder succeeds exactly on the well-formed sequences of section 4. */
  lemma {:induction false} DecodeIffWellFormed(b: seq<Byte>)
    ensures Decode(b).Some? <==> WellFormed(b)
  {
    if b != [] && CharLength(b) > 0 {
      DecodeIffWellFormed(b[CharLength(b)..]);
    }
  }

  /** Every text encodes to well-formed UTF-8: converted output is always valid UTF-8. */
  lemma EncodeWellFormed(s: string)
    ensures WellFormed(Encode(s))
  {
    DecodeEncode(s);
    DecodeIffWellFormed(Encode(s));
  }

  /** Division by 64 splits off the last six bits. */
  lemma DivMod64(q: int, r: int)
    requires 0 <= r < 64
    ensures (64 * q + r) / 64 == q && (64 * q + r) % 64 == r
  {
  }

  /** Re-encoding the code point of a UTF8-char gives back its bytes. */
  lemma EncodeCodePoint(b: seq<Byte>)
    requires CharLength(b) > 0
    ensures EncodeChar(CodePoint(b) as char) == b[..CharLength(b)]
  {
    var k := CharLength(b);
    if k == 2 {
      EncodeCodePoint2(b);
    } else if k == 3 {
      EncodeCodePoint3(b);
    } else if k == 4 {
      EncodeCodePoint4(b);
    }
  }

  lemma EncodeCodePoint2(b: seq<Byte>)
    requires CharLength(b) == 2
    ensures EncodeChar(CodePoint(b) as char) == b[..2]
  {
    DivMod64(b[0] as int - 0xC0, b[1] as int - 0x80);
  }

  lemma EncodeCodePoint3(b: seq<Byte>)
    requires CharLength(b) == 3
    ensures EncodeChar(CodePoint(b) as char) == b[..3]
  {
    var hi := (b[0] as int - 0xE0) * 64 + (b[1] as int - 0x80);
    DivMod64(hi, b[2] as int - 0x80);
    DivMod64(b[0] as int - 0xE0, b[1] as int - 0x80);
  }

  lemma EncodeCodePoint4(b: seq<Byte>)
    requires CharLength(b) == 4
    ensures EncodeChar(CodePoint(b) as char) == b[..4]
  {
    var top := (b[0] as int - 0xF0) * 64 + (b[1] as int - 0x80);
    var hi := top * 64 + (b[2] as int - 0x80);
    DivMod64(hi, b[3] as int - 0x80);
    DivMod64(top, b[2] as int - 0x80);
    DivMod64(b[0] as int - 0xF0, b[1] as int - 0x80);
  }

  /** Encoding inverts decoding: a well-formed file re-encodes to the same bytes. */
  lemma {:induction false} EncodeDecode(b: seq<Byte>)
    requires Decode(b).Some?
    ensures Encode(Decode(b).value) == b
  {
    if b != [] {
      var k := CharLength(b);
      var s := Decode(b).value;
      EncodeDecode(b[k..]);
      EncodeCodePoint(b);
      assert s[0] == CodePoint(b) as char && s[1..] == Decode(b[k..]).value;
      assert b == b[..k] + b[k..];
    }
  }

  /** The byte order mark of RFC 3629 section 6: U+FEFF encoded. */
  const BOM: seq<Byte> := [0xEF, 0xBB, 0xBF]

  predicate StartsWithBom(b: seq<Byte>) {
    |b| >= 3 && b[..3] == BOM
  }

  /** `b` without one leading byte order mark. */
  function StripBom(b: seq<Byte>): (r: seq<Byte>)
    ensures StartsWithBom(b) ==> BOM + r == b
    ensures !StartsWithBom(b) ==> r == b
  {
    if StartsWithBom(b) then b[3..] else b
  }

  /** The "utf-8-sig" codec: strict UTF-8 after dropping one leading BOM. */
  function DecodeSig(b: seq<Byte>): Option<string> {
    Decode(StripBom(b))
  }

  /** A non-empty proper prefix of the BOM: EF, or EF BB. */
  predicate PartialBom(b: seq<Byte>) {
    0 < |b| < 3 && b == BOM[..|b|]
  }

  /** A partial BOM is no UTF8-char, so "utf-8-sig" decoding of the whole of it fails. */
  lemma PartialBomRejected(b: seq<Byte>)
    ensures PartialBom(b) ==> !WellFormed(b) && DecodeSig(b).None?
  {
    if PartialBom(b) {
      assert !StartsWithBom(b);
      assert CharLength(b) == 0;
    }
  }

  /** The BOM is itself a well-formed UTF8-char, the encoding of U+FEFF. */
  lemma BomIsEncodedFeff()
    ensures EncodeChar('\U{FEFF}') == BOM
    ensures CharLength(BOM) == 3 && CodePoint(BOM) == 0xFEFF
  {
  }

  /** "utf-8-sig" accepts exactly the byte strings that "utf-8" accepts. */
  lemma DecodeSigAccepts(b: seq<Byte>)
    ensures DecodeSig(b).Some? <==> WellFormed(b)
  {
    DecodeIffWellFormed(b);
    DecodeIffWellFormed(StripBom(b));
    if StartsWithBom(b) {
      assert b[..3] == BOM;
      assert CharLength(b) == 3;
      assert b[3..] == StripBom(b);
    }
  }

  /** Decoding with "utf-8-sig" and re-encoding gives the input minus one leading BOM. */
  lemma DecodeSigRoundTrip(b: seq<Byte>)
    requires DecodeSig(b).Some?
    ensures Encode(DecodeSig(b).value) == StripBom(b)
  {
    EncodeDecode(StripBom(b));
  }

  /** A text encoded behind a BOM comes back from "utf-8-sig" without it. */
  lemma DecodeSigDropsBom(s: string)
    ensures DecodeSig(BOM + Encode(s)) == Some(s)
  {
    assert (BOM + Encode(s))[..3] == BOM;
    assert (BOM + Encode(s))[3..] == Encode(s);
    DecodeEncode(s);
  }

  /** Encoded output starts with a BOM exactly when the text starts with U+FEFF. */
  lemma EncodedStartsWithBom(s: string)
    ensures StartsWithBom(Encode(s)) <==> s != [] && s[0] == '\U{FEFF}'
  {
    if s != [] {
      var e := EncodeChar(s[0]);
      EncodeCharFirst(s[0], Encode(s[1..]));
      BomIsEncodedFeff();
      if StartsWithBom(Encode(s)) {
        var b := Encode(s);
        assert b[0] == 0xEF && b[1] == 0xBB && b[2] == 0xBF;
        assert CharLength(b) == 3;
        assert CodePoint(b) == 0xFEFF;
      }
      if s[0] == '\U{FEFF}' {
        assert Encode(s)[..3] == e;
      }
    }
  }
}

=== FILE: wrappers.dfy ===
/** Option and Result values used across the model. */
module Wrappers {

  datatype Option<+T> = None | Some(value: T) {
    /** The wrapped value, or `default` when there is none. */
    function GetOr(default: T): T {
      match this
      case Some(v) => v
      case None => default
    }
  }

  /** Either the value an operation returns or the exception it raises. */
  datatype Result<+T, +E> = Ok(value: T) | Err(error: E)
}
